=== FILE: README.md ===
# Task tracker services in Dafny

This project models the service layer of a NestJS/TypeORM task tracker. In the tracker, users own and join rooms, create and assign tasks inside rooms, and receive push notifications on their devices. Six pieces are modelled:

- **authentication** (`register`, `login`, `logout`, token refresh): refresh and access tokens are stored inline on the user row;
- **the `jwt-refresh` passport strategy**, which guards the refresh endpoint;
- **invite-code strings**;
- **room membership**: the validators, adding and removing `UserRoom` links, and the sorted member list;
- **task rules**: the validators, create, update, assign, delete and status changes, and the notifications they send;
- **notification bookkeeping**: the fan-out to login sessions, the FCM token update, paging and mark-as-read.

Every repository is a table in one `Database` object (`Entities.Database`). Each table is a `seq` of rows, in scan order. The service classes hold a reference to that object, and each method names the tables it changes in its `modifies` frame.

The ORM calls reduce to a few rules:

- **Queries.** `findOne` returns the first row its where-clause selects (`Common.First`). `find` returns the selected rows in order (`Common.Where`).
- **Writes.** `update`, `save` and `softRemove` rewrite every row with the matching key. No uniqueness of keys is assumed.
- **Soft deletion.** Soft-deleted rows have `deleted` set. Finds skip them; `update` does not.
- **Columns and relations not loaded.** Two TypeORM behaviours are kept as written:
  - A `select: false` column is not loaded by a default select.
  - A relation that is not listed in `relations` is undefined on the loaded entity.
  - Reading through a null or undefined value is the error `Crash`, a JavaScript TypeError.
- **Errors.** A thrown exception is an `Err`/`Fail` value carrying the exception kind and its message.

Values that come from outside the program are parameters of the operations:

- the clock, `now` in milliseconds;
- generated keys;
- uuids;
- bcrypt and the JWT signer and verifier, which are function-typed constants of the services.

Firebase sends are appended to the database's `outbox`.

Tokens live on the user row. The code has no refresh-token chain, no rotation ledger and no reuse detection. `createNewRefreshToken` never stores an access token. The consequence is proved in `Auth.AuthService.RefreshAccessToken`: while no row holds an access token, a refresh that presents an access token always fails.

`validateUser` compares the plain password with the password of a default select. That column is `select: false`, so it is not read. The entity is built by its constructor, whose field initializer sets `password` to the empty string. The user is therefore returned, without its password, exactly when the email exists and the given password is empty (`Auth.ValidateUser`). Nothing in the modelled services calls `validateUser`.

## Model

| member | source | states |
|---|---|---|
| Auth.DateColumn | src/auth/auth.service.ts:150-152 | the stored expiry is the start of the day of the computed instant: at most that instant and less than a day before it |
| Auth.TimeValue | src/auth/auth.service.ts:150-152 | `new Date` keeps the integer part of a fractional millisecond count, truncating toward zero |
| Auth.IssuedExpiry | src/auth/auth.service.ts:137-152 | a refresh token issued at `now` expires on the day containing `now + minutes * 60000`, for a fractional number of minutes too; for whole minutes that instant is exact |
| Auth.TokenOwner | src/auth/auth.service.ts:158-168 | the row found holds the presented refresh token; none is found exactly when no row holds it |
| Auth.SessionOwner | src/auth/auth.service.ts:201-207 | the row found has both the email and the refresh token; none is found exactly when no row has both |
| Auth.RoleByTitle | src/auth/auth.service.ts:53-55 | the role found has the USER title; none exactly when no role has it |
| Auth.ClearTokens | src/auth/auth.service.ts:174-177 | rows with the key get all three token columns nulled and keep every other column; rows with other keys are unchanged |
| Auth.StoreRefreshToken | src/auth/auth.service.ts:149-153 | rows with the key get exactly the new token and expiry; rows with other keys are unchanged |
| Auth.IsExistEmail | src/auth/auth.service.ts:31-34 | true exactly when some user has the email |
| Auth.ValidateUser | src/auth/auth.service.ts:36-43 | the first user with the email is returned, as its profile without the password, exactly when the email exists and the given password is empty, because the unselected password keeps its empty initializer |
| Auth.ValidateUserIgnoresStoredPassword | src/auth/auth.service.ts:36-43 | changing a user's stored password never changes whether `validateUser` accepts |
| Auth.GetUserFromToken | src/auth/auth.service.ts:107-119 | a user is returned only for a token that verifies, and it is the user the token's subject names; an existing subject always yields its user; a token that fails verification yields null |
| Auth.ClaimsOf | src/auth/auth.service.ts:220-226 | the claims carry the user's key, email, name and the title of the user's role; the read succeeds exactly when the user has a role key whose role row exists, and throws otherwise |
| Auth.CheckCredentials | src/auth/auth.service.ts:64-86 | success means the first user with the email, whose hash accepts the password, and such a user always succeeds; every failure is Unauthorized "Invalid credentials"; an unknown email always fails |
| Auth.LoginFailuresIndistinguishable | src/auth/auth.service.ts:70-86 | an unknown email and a wrong password give the identical error |
| Auth.AuthService.Register | src/auth/auth.service.ts:45-62 | an existing USER role is reused and a role is created only when none exists; one user row is appended with the hashed password and that role, and no token columns |
| Auth.AuthService.CreateNewRefreshToken | src/auth/auth.service.ts:132-155 | a missing or non-numeric duration gives Forbidden "Secrets not found" before any lookup; an unknown user gives Unauthorized "User not found"; otherwise the token `uuid1-uuid2` and its day-truncated expiry are stored on exactly that user's rows; no access token is ever stored |
| Auth.AuthService.CreateAccessToken | src/auth/auth.service.ts:220-232 | the token is the signer applied to the user's email, key, role title and full name; it throws exactly when the user has no role key or no role row with that key |
| Auth.AuthService.Login | src/auth/auth.service.ts:64-95 | the credential check, then the access token, then the refresh token, each failure leaving the rows unchanged; success returns both tokens and stores the refresh token; every Unauthorized is "Invalid credentials" |
| Auth.AuthService.Logout | src/auth/auth.service.ts:97-105 | the user's three token columns become null and no other row changes; an unknown user makes the write through null throw |
| Auth.AuthService.RefreshAccessToken | src/auth/auth.service.ts:157-195 | an unknown refresh token gives "Invalid refresh token" and changes nothing; an expired one clears that user's tokens and fails; then an access-token mismatch gives "Invalid access token" and changes nothing; otherwise a new pair is issued as at login; while no row holds an access token, any presented access token is refused |
| Auth.AuthService.ValidRefreshToken | src/auth/auth.service.ts:197-218 | no row with the email and token makes the write through null throw; an expired row has its tokens cleared and null is returned; otherwise the selected columns of that user are returned and nothing changes |
| RefreshStrategy.ExtractToken | src/auth/strategies/refresh-token.strategy.ts:20-28 | null when the `auth-cookie` cookie or its access token is absent, otherwise that access token |
| RefreshStrategy.Precheck | src/auth/strategies/refresh-token.strategy.ts:32-39 | a missing payload is refused with "invalid jwt token" before the cookie is read; a cookie without a non-empty refresh token is refused with "invalid refresh token"; otherwise the payload's email and the cookie's refresh token are passed on |
| RefreshStrategy.Conclude | src/auth/strategies/refresh-token.strategy.ts:40-48 | null becomes "Token expired. Please login"; a user is returned unchanged; an error propagates |
| RefreshStrategy.PrecheckIgnoresExpiry | src/auth/strategies/refresh-token.strategy.ts:16-17 | the token's expiry claim never changes the decision |
| RefreshStrategy.RtStrategy.Validate | src/auth/strategies/refresh-token.strategy.ts:32-49 | a refused precheck changes nothing; otherwise the outcome and the effect on the user rows are those of `validRefreshToken`, with null turned into "Token expired. Please login" |
| RefreshStrategy.RtStrategy.Authenticate | src/auth/strategies/refresh-token.strategy.ts:16-29 | no extractable token, or one the refresh secret does not verify, is refused with 401 before `validate` runs; a verified token gets exactly `validate`'s outcome and effect on the user rows (precheck errors, a throw for no matching row, tokens cleared and "Token expired. Please login" for an expired row); an accepted request carries a verified payload whose email is the returned user's and leaves the rows unchanged |
| InviteCode.GenerateInviteCode | src/common/util/inviteCode.ts:1-3 | the link is the prefix, a slash and the uuid: it starts with `prefix/` and ends with the uuid |
| InviteCode.CompareInviteCode | src/common/util/inviteCode.ts:5-10 | an accepted link starts with `prefix/` and carries the uuid after it |
| InviteCode.RoundTrip | src/common/util/inviteCode.ts:1-10 | a generated link is accepted for its own uuid |
| InviteCode.CompareIsEquality | src/common/util/inviteCode.ts:6-9 | a link is accepted exactly when it equals the generated link; the prefix test is implied |
| InviteCode.OtherUuidRejected | src/common/util/inviteCode.ts:8 | under one prefix, a link generated for one uuid is refused for every other uuid |
| InviteCode.GenerateInjective | src/common/util/inviteCode.ts:1-3 | different uuids give different links under one prefix |
| Rooms.LinksOfRoom | src/room/room.service.ts:197-199 | exactly the live links of the room, none invented |
| Rooms.IsRoomExist | src/room/room.service.ts:167-170 | true exactly when a live room has the key |
| Rooms.IsRoomCreator | src/room/room.service.ts:144-149 | true exactly when the user holds a live owner link to the room |
| Rooms.IsRoomMemberById | src/room/room.service.ts:28-43 | true exactly when the user exists and holds a live link to the room |
| Rooms.IsRoomMember | src/room/room.service.ts:151-165 | false for an unknown email; otherwise membership of the first user with that email |
| Rooms.JoinRoomValidatorAsWritten | src/room/room.service.ts:45-60 | as written: "Room not found", then "User not found", then it passes exactly when the user is already a member; every failure is BadRequest |
| Rooms.JoinRoomValidator | src/room/room.service.ts:45-60 | as intended: passes exactly when the room and user exist and the user is not yet a member; a member is refused with "User is already a member of the room" |
| Rooms.JoinRoomValidatorInverted | src/room/room.service.ts:56-59 | for an existing room and user, the written check refuses every newcomer and admits every member, the opposite of the intended one |
| Rooms.NewLink | src/room/room.service.ts:62-68 | the saved link is live, non-owner unless asked, and has a null side wherever a lookup found nothing |
| Rooms.JoinMakesMember | src/room/room.service.ts:62-68 | after the intended validator passes, the saved link turns a non-member into a member |
| Rooms.RemoveRoomValidator | src/room/room.service.ts:190-207 | "Room not found" (NotFound), then "Room has members…" (BadRequest) for more than one link; passes exactly otherwise, returning the confirmation text |
| Rooms.SoftRemoveRoom | src/room/room.service.ts:209-213 | afterwards no live room has the key; rows with other keys are unchanged; nothing but the deletion mark changes |
| Rooms.AddMemberValidator | src/room/room.service.ts:215-235 | the check order: user by email (NotFound), room (NotFound), caller is owner (Unauthorized), target not already a member (BadRequest); passes exactly when all four hold |
| Rooms.MemberLink | src/room/room.service.ts:237-249 | the saved link is a live non-owner link of the first user with the email to the room |
| Rooms.AddMemberMakesMember | src/room/room.service.ts:215-249 | after the validator passes, the saved link turns the non-member into a member, and the owner stays owner |
| Rooms.RemoveMemberValidator | src/room/room.service.ts:251-294 | "Room not found", then "You are not the owner of the room"; for one member: "User not found" for an unknown user, `false` exactly when the user holds no non-owner link in the room, and no value exactly when it holds one; for all: "Room has no members" for at most one link, and no value exactly when there are more; it never returns `true` |
| Rooms.SoftRemoveLinks | src/room/room.service.ts:301-315 | the links with the given keys get the deletion mark and nothing else; other links are unchanged |
| Rooms.RemoveAllEmptiesRoom | src/room/room.service.ts:301-307 | removing all links leaves the room with no live link, the owner's included |
| Rooms.RemoveAllSparesOtherRooms | src/room/room.service.ts:301-307 | with unique link keys, every link of another room is untouched |
| Rooms.RemoveOneChangesOneRow | src/room/room.service.ts:309-316 | with unique link keys, removing one link marks exactly that row |
| Rooms.SoftRemoveShrinksRoom | src/room/room.service.ts:309-316 | soft removal never adds a live link to a room, and removes one whenever a removed key belongs to the room |
| Rooms.OwnerLinkPassesRemoveMember | src/room/room.service.ts:267-316 | the validator does not stop an owner from removing their own link: it answers `false`, and `removeMember` then finds that owner link |
| Rooms.NameLeTotal | src/room/room.service.ts:362 | any two names are comparable in the name order |
| Rooms.NameLeTransitive | src/room/room.service.ts:362 | the name order is transitive |
| Rooms.PrecedesTotal | src/room/room.service.ts:356-363 | any two members are ordered: owners first, then by name |
| Rooms.PrecedesTransitive | src/room/room.service.ts:356-363 | that member order is transitive |
| Rooms.Insert | src/room/room.service.ts:355-363 | insertion adds exactly the one member |
| Rooms.InsertSorted | src/room/room.service.ts:355-363 | insertion into a sorted list keeps it sorted |
| Rooms.SortMembers | src/room/room.service.ts:355-363 | the sort is a permutation |
| Rooms.SortMembersSorted | src/room/room.service.ts:355-363 | the sort's result puts owners first, then orders by name |
| Rooms.MemberOf | src/room/room.service.ts:364-372 | a listed member carries the link's key and owner flag and its user's key, email and name; none when the user is null |
| Rooms.JoinUsers | src/room/room.service.ts:355-372 | one member per link, in order, when every link has a user; a null user throws |
| Rooms.Listed | src/room/room.service.ts:340-354 | exactly the room's live links, owner links only when asked |
| Rooms.GetUserOfRoom | src/room/room.service.ts:320-374 | succeeds exactly when every kept link has a user; then owners first, then by name; no owner unless asked; every entry is the member of one of the room's links and every kept link's member is listed; the result is a permutation of the kept links' members; a null user throws |
| Rooms.JoinedMembersFromRoom | src/room/room.service.ts:340-373 | every member joined to the kept links is the member of a link of the room, and no owner unless owners were asked for |
| Rooms.ListedMembersSound | src/room/room.service.ts:372 | reordering the members keeps each of them the member of a room link, and keeps owners out unless asked |
| Rooms.ListedMembersComplete | src/room/room.service.ts:340-373 | in any reordering of the kept links' members, every room link (owner links only when asked) has its member listed |
| Rooms.RoomService.JoinRoom | src/room/room.service.ts:62-68 | appends one non-owner link; after the intended validator passed, the user is a member |
| Rooms.RoomService.CreateRoom | src/room/room.service.ts:172-184 | appends the room and its creator's owner link; the room exists, and an existing creator owns it |
| Rooms.RoomService.RemoveRoom | src/room/room.service.ts:209-213 | soft-removes the room's rows only; the room no longer exists |
| Rooms.RoomService.AddMember | src/room/room.service.ts:237-249 | "User not found", then "Room not found", each changing nothing; otherwise appends one non-owner link, after which the user is a member |
| Rooms.RoomService.RemoveMember | src/room/room.service.ts:296-318 | with `removeAll`, every link of the room is soft-removed and `true` is returned; otherwise no link gives `false` and no change, and a link gives `true` with exactly that key removed and the room one link smaller |
| Notifications.ExpiryCheckNeverFires | src/notification/notification.service.ts:49-52 | the session expiry is not loaded, so the written test is false even for an expired session |
| Notifications.UserSessions | src/notification/notification.service.ts:42-44 | exactly the user's live sessions, in table order |
| Notifications.FanoutSound | src/notification/notification.service.ts:48-61 | every message goes, with the given title and body, to the token of a live, unexpired session that has one; there is at most one message per session; a reported expired session is one of them |
| Notifications.FanoutComplete | src/notification/notification.service.ts:48-61 | if no session is expired or tokenless, every session gets exactly one message, in order |
| Notifications.FanoutFromIsFanout | src/notification/notification.service.ts:48-60 | the loop's indexed view of the fan-out from session i equals the fan-out of the sessions from i on |
| Notifications.ExpiredSessionStopsLoop | src/notification/notification.service.ts:48-52 | the first expired session, after sessions that all have tokens, is the one reported, and only the sessions before it were sent to |
| Notifications.TokenlessSessionSilencesRest | src/notification/notification.service.ts:53 | a first session without a token ends the loop: no later session is sent to |
| Notifications.SoftRemoveSession | src/notification/notification.service.ts:50 | only the session's rows get the deletion mark |
| Notifications.StoreFcmToken | src/notification/notification.service.ts:104-107 | only the session's rows get the new device token |
| Notifications.SessionFor | src/notification/notification.service.ts:92-97 | the session found is live and has the refresh token and the user; none exactly when no session has them |
| Notifications.InsertNewest | src/notification/notification.service.ts:122 | insertion adds exactly the one notification |
| Notifications.InsertNewestBounded | src/notification/notification.service.ts:122 | inserting keeps every row within a common upper bound on creation time |
| Notifications.InsertNewestSorted | src/notification/notification.service.ts:122 | insertion keeps a newest-first list newest first |
| Notifications.SortNewest | src/notification/notification.service.ts:122 | the ordering is a permutation |
| Notifications.SortNewestSorted | src/notification/notification.service.ts:122 | the ordering is newest first |
| Notifications.Inbox | src/notification/notification.service.ts:120-122 | the user's notifications, all of them and only them, newest first |
| Notifications.OffsetIsProduct | src/notification/notification.service.ts:124 | the skipped count is `(page - 1) * pageSize` |
| Notifications.Page | src/notification/notification.service.ts:123-124 | at most `pageSize` rows, the i-th being row `skip + i` |
| Notifications.PageFollowsOffset | src/notification/notification.service.ts:123-124 | the rows before page n followed by page n are the rows before page n + 1 |
| Notifications.PagesTile | src/notification/notification.service.ts:123-124 | pages 1 to n concatenated are the first `n * pageSize` rows: none skipped, none repeated |
| Notifications.InboxRows | src/notification/notification.service.ts:120-122 | every inbox row is one of the user's notifications |
| Notifications.GetNotifications | src/notification/notification.service.ts:114-131 | at most `pageSize` notifications, all the user's, newest first |
| Notifications.PagesTileInbox | src/notification/notification.service.ts:114-131 | reading pages 1 to n in turn yields the user's newest `n * pageSize` notifications in order |
| Notifications.MarkRead | src/notification/notification.service.ts:137-147 | a notification becomes read exactly when it is the user's (and has the key, when one is given); no other column or row changes |
| Notifications.MarkReadIdempotent | src/notification/notification.service.ts:137-147 | marking twice is marking once; marking all after marking one is marking all |
| Notifications.NotificationService.SendNotificationToUser | src/notification/notification.service.ts:40-66 | the outbox gains exactly the fan-out's messages; an expired session is soft-removed and the call fails with "Refresh token expired"; otherwise no session changes |
| Notifications.NotificationService.SendToSessions | src/notification/notification.service.ts:48-63 | the loop over the found sessions: the outbox gains the indexed fan-out's messages; an expired session is soft-removed and ends it with "Refresh token expired" |
| Notifications.NotificationService.SendNotificationAndSave | src/notification/notification.service.ts:69-88 | nothing happens for an unknown user; otherwise the fan-out runs, and the notification row is saved only when it raised no error; it never fails |
| Notifications.NotificationService.UpdateFcmToken | src/notification/notification.service.ts:90-112 | no matching session gives "Invalid fcm token"; an expired one gives "Refresh token expired", both changing nothing; otherwise only that session's token changes |
| Notifications.NotificationService.MarkAsRead | src/notification/notification.service.ts:133-152 | the table becomes the marked table; with `isReadAll` every notification of the user is read |
| Tasks.RoomOf | src/task/task.service.ts:69-72 | the loaded room relation is the room row with the task's room key, or null when there is none |
| Tasks.AssigneeOf | src/task/task.service.ts:265-268 | the loaded user relation is the user row with the task's assignee key, or null when there is none |
| Tasks.CreateTaskValidator | src/task/task.service.ts:120-151 | a past due date is refused before any lookup; then "Room not found", then for a given assignee "User not found" and "User is not in the room"; it passes exactly when the date is valid, the room exists and a given assignee is a member |
| Tasks.NewTask | src/task/task.service.ts:153-180 | the saved task has status TODO, and an assignee and room only when they were found |
| Tasks.ValidatedTaskPlaced | src/task/task.service.ts:120-180 | a task created after the validator passed lies in its room, with the given assignee, who is a member |
| Tasks.UpdateTaskValidator | src/task/task.service.ts:182-217 | due date, then "Task not found", then "User not found", then a throw for a task whose room relation is null, then "User is not in the room" for an assignee without a link to the task's room; it passes exactly when all hold |
| Tasks.AssignChecks | src/task/task.service.ts:49-65 | a caller without link throws; a non-owner is refused "You are not allowed to assign task"; an owner naming an assignee without a link gets "User is not in the room"; it passes exactly for an owner and an assignee linked to the room |
| Tasks.AssignTaskValidatorAsWritten | src/task/task.service.ts:35-66 | as written: "Task not found", and for every existing task the read of the unloaded room throws |
| Tasks.AssignTaskValidator | src/task/task.service.ts:35-66 | with the room loaded: "Task not found" for a missing task, a throw for a task whose room row is missing, otherwise exactly the owner and membership checks; passing implies the task exists, the caller owns its room and the assignee is linked to it |
| Tasks.AssignValidatorAlwaysThrows | src/task/task.service.ts:41-51 | every assignment that the intended validator accepts throws as written |
| Tasks.UpdateStatusTaskValidator | src/task/task.service.ts:260-293 | "Task not found", then "Status is invalid" for a status outside the enum; passes exactly when the task's room exists and the caller's first link to it is an owner link or the caller is the task's assignee; throws exactly when the room, the caller's link, or (for a non-owner) the assignee is missing; "You are not allowed to update status" exactly for a linked non-owner when the task has an assignee other than the caller |
| Tasks.ViewOf | src/task/task.service.ts:102-114 | a returned task carries the task's id, title, description, due date, status and review, and its assignee's id, full name and email exactly when the assignee row exists; no room, `isComplete` or password |
| Tasks.RoomTasks | src/task/task.service.ts:93-101 | the `find` matches exactly the room's live tasks, restricted to the given assignee when one is given |
| Tasks.GetTasksOfRoom | src/task/task.service.ts:93-118 | one entry per matched task; every entry is the selected columns of a live task of the room (of the given assignee, when one is given), and every such task's selected columns are listed |
| Tasks.AssigneeFilterNarrows | src/task/task.service.ts:95-98 | restricting to an assignee never lists more tasks |
| Tasks.NotifyOnUpdateAsWritten | src/task/task.service.ts:219-238 | as written the assignee check always throws, because the user relation is not loaded |
| Tasks.NotifyOnUpdate | src/task/task.service.ts:238 | as intended: notify exactly when the assignee changes |
| Tasks.ReassignmentNotifiesOnlyWhenCorrected | src/task/task.service.ts:238-244 | a real reassignment is notified under the intended rule and throws as written |
| Tasks.EditTasks | src/task/task.service.ts:229-237 | rows with the key get the new title, description, due date and assignee and keep every other column; other rows are unchanged |
| Tasks.AssignTasks | src/task/task.service.ts:76 | rows with the key get the new assignee only |
| Tasks.SetStatus | src/task/task.service.ts:299-302 | rows with the key get the new status only |
| Tasks.SoftDeleteTasks | src/task/task.service.ts:257 | afterwards no live task has the key; only rows with the key change, and only in their deletion mark |
| Tasks.EditReadBack | src/task/task.service.ts:229-237 | after the update, looking the task up finds the same row with the new fields |
| Tasks.AssignReadBack | src/task/task.service.ts:76 | after the update, the task's assignee is the new user |
| Tasks.StatusReadBack | src/task/task.service.ts:299-307 | after the update, the task looked up is the old one with the new status |
| Tasks.CompletionLookup | src/task/task.service.ts:304-311 | the context holds the live task, its room, and the user of the room's first owner link; it succeeds exactly when the task, its room, that owner link, the link's user key and that user row all exist, and throws otherwise |
| Tasks.TaskService.CreateTask | src/task/task.service.ts:153-180 | appends the new task and returns true |
| Tasks.TaskService.UpdateTask | src/task/task.service.ts:219-245 | "Task not found" changes nothing; otherwise the rows are edited, and the new assignee is notified with "Assigned to task" exactly when the assignee changed; a task without room then throws |
| Tasks.TaskService.AssignTask | src/task/task.service.ts:68-83 | "Task not found" changes nothing; otherwise the rows get the assignee, who is then notified with "Assigned to task"; a task without room throws after the update |
| Tasks.TaskService.DeleteTask | src/task/task.service.ts:247-258 | "Task not found" changes nothing; otherwise the rows with the key are soft-deleted; afterwards the task is not found |
| Tasks.TaskService.UpdateStatusTask | src/task/task.service.ts:295-321 | the rows get the status; then the room owner is notified with "Task completed" exactly when the caller is not the owner and the status is DONE; a missing task, room or owner throws |
| Tasks.TaskService.NotifyCompletion | src/task/task.service.ts:303-320 | after the write: a failed lookup of task, room or owner throws and changes nothing; otherwise the owner is notified with "Task completed" and the task and room names exactly when the caller is not the owner and the status is DONE, and nothing changes otherwise |

## Left out

- Controllers, modules, `main.ts` and the DI wiring. They are HTTP routing, not service logic. These call-site facts are left out with them:
  - The duplicate-email check before `register` lives in the auth controller.
  - The assign route passes the caller's key, not the DTO's `userId`, to `assignTask`.
- `getAllRooms` (raw SQL with joins), `getRoomById`, `updateRoom` (it only throws), `getAllTasksOfRoom` (unused) and `getUserById`. None of them is part of the modelled services.
- The `sendNotification` test helper, which only calls Firebase.
- bcrypt, JWT signing and verification, and uuid generation. These are foreign libraries; they are opaque function-typed constants or parameters.
- Firebase: a send is appended to the `outbox`, and a failing send is not modelled.
- Dates:
  - Instants are integers in milliseconds.
  - `toDateString()` and the `date` column are modelled as truncation to the start of a UTC day.
  - Time zones and calendar rules are not modelled.
- `localeCompare`: names are ordered by code points. Collation is not modelled.
- Transactions and concurrency: every operation is atomic.
- Joined relations ignore soft deletion:
  - A task's room relation finds a soft-deleted room.
  - A link's room is not checked for deletion.
- The `inviteCode` column of rooms is not modelled. It is not read by the modelled services.
- `console.log` output is not modelled.
- Database-generated columns: generated keys and `createdAt` are parameters.
- Soft deletion of users and notifications: both entities carry the delete date, but their records have no deletion mark, so `UserById`, `UserByEmail` and the notification queries do not skip soft-deleted rows. No modelled operation soft-deletes a user or a notification.
- Auth.AuthService.RefreshAccessToken: the `role` relation, named among the selected columns, is treated as loaded.
- Notifications.GetNotifications: requires `page >= 1` and `pageSize >= 1`. A smaller page gives the database a negative skip or take, whose behaviour depends on the driver.
- Notifications.NotificationService.SendNotificationToUser: uses the intended expiry test `SessionExpired`. See Findings for the written one.
- Notifications.NotificationService.UpdateFcmToken: uses the intended expiry test, for the same reason.
- Tasks.TaskService.UpdateTask: uses the intended assignee check `NotifyOnUpdate`. The written check always throws (see Findings).
- Tasks.AssignTaskValidator: loads the room relation that the written code omits. A caller without a link to the room still throws, as written.
- Auth.IssuedExpiry: a REFRESH_TOKEN_DURATION of `Infinity`, or one beyond the range of `Date`, gives an invalid date whose save fails. Durations are finite reals. Floating-point rounding of the sum is not modelled.
- Task ids in messages are rendered in decimal, because keys here are numbers rather than uuids.
- `Crash` stands for every TypeError. The differing messages of such errors are not modelled.

## Findings

| source | as written | input that shows it | evidently intended | confidence | as-written member | corrected member |
|---|---|---|---|---|---|---|
| src/room/room.service.ts:57-59 | throws "User is already a member of the room" when the user is NOT a member | an existing user with no link to an existing room asks to join and is refused; a member passes | refuse members, admit non-members | not executed | Rooms.JoinRoomValidatorAsWritten, Rooms.JoinRoomValidatorInverted | Rooms.JoinRoomValidator |
| src/notification/notification.service.ts:49-52 | compares `new Date(loginSession.refreshTokenExp)` with now, but the column is `select: false`, so the date is invalid and the comparison is false (the same test recurs at lines 101-103) | a session whose refresh token expired yesterday is sent to and is not soft-removed | skip and soft-remove expired sessions | not executed | Notifications.SessionExpiredAsLoaded, Notifications.ExpiryCheckNeverFires | Notifications.SessionExpired |
| src/task/task.service.ts:41-51 | loads the task without relations and reads `task.room.id` | any existing task: the validator throws a TypeError for every assignment | load the `room` relation and check ownership and membership in the task's room | not executed | Tasks.AssignTaskValidatorAsWritten, Tasks.AssignValidatorAlwaysThrows | Tasks.AssignTaskValidator |
| src/task/task.service.ts:219-238 | loads the task with the `room` relation only and reads `existTask.user.id` after the update | any update of an existing task: the rows are edited, then a TypeError is thrown and no notification is sent | notify the new assignee when the assignee changed | not executed | Tasks.NotifyOnUpdateAsWritten, Tasks.ReassignmentNotifiesOnlyWhenCorrected | Tasks.NotifyOnUpdate |

=== FILE: auth_service.dfy ===
/**
 * The authentication service: registration, login, logout and the refresh of
 * an access token. Tokens live inline on the user row, in three nullable
 * columns: `accessToken`, `refreshToken` and `refreshTokenExp`. bcrypt, the
 * JWT signer and uuid generation are not modelled: the service holds bcrypt
 * and the signer as opaque functions, and random values arrive as parameters.
 */
module Auth {
  import opened Common
  import opened Entities

  /** The pair `login` and `refreshAccessToken` return. */
  datatype Tokens = Tokens(accessToken: string, refreshToken: string)

  /** The body of a refresh request; a JSON `null` access token is `None`. */
  datatype RefreshRequest = RefreshRequest(accessToken: Option<string>, refreshToken: string)

  /** The claims `createAccessToken` signs. */
  datatype AccessClaims = AccessClaims(email: string, sub: Id, role: RoleType, fullName: string)

  /**
   * REFRESH_TOKEN_DURATION as configured: absent or empty, not a number, or a
   * finite number of minutes, possibly fractional ("1.5" is ninety seconds).
   */
  datatype DurationSetting = Unset | NotNumeric | Minutes(value: real)

  /** A user as a default select loads it: the hidden columns left out. */
  datatype Profile = Profile(id: Id, email: string, isVerified: bool, fullName: string)

  /** The columns `validRefreshToken` selects. */
  datatype SessionUser = SessionUser(id: Id, fullName: string, email: string, refreshTokenExp: Option<int>)

  const MsPerMinute: int := 60000
  const MsPerDay: int := 86400000

  const InvalidCredentials: string := "Invalid credentials"

  /**
   * The instant a `date` column keeps for instant `t`: `toDateString()` drops
   * the time of day, so the stored value is the start of t's day.
   */
  function DateColumn(t: int): (d: int)
    ensures d <= t < d + MsPerDay
    ensures d % MsPerDay == 0
  {
    t - t % MsPerDay
  }

  /** `new Date(refreshTokenExp)`: a null date reads as the epoch. */
  function ExpiryInstant(exp: Option<int>): int
  {
    match exp
    case None => 0
    case Some(t) => t
  }

  /** `new Date(user.refreshTokenExp) < new Date()`. */
  predicate RefreshExpired(u: User, now: int)
  {
    ExpiryInstant(u.refreshTokenExp) < now
  }

  function ProfileOf(u: User): Profile
  {
    Profile(u.id, u.email, u.isVerified, u.fullName)
  }

  /**
   * A user row as a select without explicit columns loads it. `password` is
   * `select: false`, so the column is not read; the entity is built by its
   * constructor, whose field initializer leaves `password` as the empty string.
   */
  datatype LoadedUser = LoadedUser(profile: Profile, password: string)

  function DefaultSelect(u: User): LoadedUser
  {
    LoadedUser(ProfileOf(u), "")
  }

  /** `new Date(ms)` keeps the integer part of a fractional time value: truncation toward zero. */
  function TimeValue(ms: real): (t: int)
    ensures ms >= 0.0 ==> t as real <= ms < t as real + 1.0
    ensures ms < 0.0 ==> t as real - 1.0 < ms <= t as real
  {
    if ms >= 0.0 then ms.Floor else -((-ms).Floor)
  }

  /** The expiry `createNewRefreshToken` stores for a token issued at `now`, `minutes` minutes on. */
  function IssuedExpiry(now: int, minutes: real): (d: int)
    ensures d <= TimeValue(now as real + minutes * MsPerMinute as real) < d + MsPerDay
    ensures minutes.Floor as real == minutes ==> d <= now + minutes.Floor * MsPerMinute < d + MsPerDay
  {
    DateColumn(TimeValue(now as real + minutes * MsPerMinute as real))
  }

  /** `findOne({ where: { refreshToken } })`. */
  function TokenOwner(users: seq<User>, refreshToken: string): (r: Option<nat>)
    ensures r.Some? ==> r.value < |users| && users[r.value].refreshToken == Some(refreshToken)
    ensures r.None? <==> forall k :: 0 <= k < |users| ==> users[k].refreshToken != Some(refreshToken)
  {
    First(users, (u: User) => u.refreshToken == Some(refreshToken))
  }

  /** `findOne({ where: { email, refreshToken } })`. */
  function SessionOwner(users: seq<User>, email: string, refreshToken: string): (r: Option<nat>)
    ensures r.Some? ==> r.value < |users| && users[r.value].email == email
    ensures r.Some? ==> users[r.value].refreshToken == Some(refreshToken)
    ensures r.None? <==> forall k :: 0 <= k < |users| ==>
      users[k].email != email || users[k].refreshToken != Some(refreshToken)
  {
    First(users, (u: User) => u.email == email && u.refreshToken == Some(refreshToken))
  }

  /** `findOne({ where: { title: RoleType.USER } })` on the roles table. */
  function RoleByTitle(roles: seq<Role>, title: RoleType): (r: Option<nat>)
    ensures r.Some? ==> r.value < |roles| && roles[r.value].title == title
    ensures r.None? <==> forall k :: 0 <= k < |roles| ==> roles[k].title != title
  {
    First(roles, (g: Role) => g.title == title)
  }

  /** `UPDATE user SET accessToken = NULL, refreshToken = NULL, refreshTokenExp = NULL WHERE id = :id`. */
  function ClearTokens(users: seq<User>, id: Id): (r: seq<User>)
    ensures |r| == |users|
    ensures forall k :: 0 <= k < |users| && users[k].id != id ==> r[k] == users[k]
    ensures forall k :: 0 <= k < |users| && users[k].id == id ==>
      r[k].accessToken.None? && r[k].refreshToken.None? && r[k].refreshTokenExp.None?
    ensures forall k :: 0 <= k < |users| ==>
      r[k] == users[k].(accessToken := r[k].accessToken, refreshToken := r[k].refreshToken,
                        refreshTokenExp := r[k].refreshTokenExp)
  {
    seq(|users|, k requires 0 <= k < |users| =>
      if users[k].id == id
      then users[k].(accessToken := None, refreshToken := None, refreshTokenExp := None)
      else users[k])
  }

  /** `save(user)` after `createNewRefreshToken` set the token and its expiry on the row with key `id`. */
  function StoreRefreshToken(users: seq<User>, id: Id, token: string, exp: int): (r: seq<User>)
    ensures |r| == |users|
    ensures forall k :: 0 <= k < |users| && users[k].id != id ==> r[k] == users[k]
    ensures forall k :: 0 <= k < |users| && users[k].id == id ==>
      r[k] == users[k].(refreshToken := Some(token), refreshTokenExp := Some(exp))
  {
    seq(|users|, k requires 0 <= k < |users| =>
      if users[k].id == id then users[k].(refreshToken := Some(token), refreshTokenExp := Some(exp))
      else users[k])
  }

  /** No user row holds an access token. No operation of the service ever writes one. */
  predicate NoAccessTokenStored(users: seq<User>)
  {
    forall k :: 0 <= k < |users| ==> users[k].accessToken.None?
  }

  /** `isExistEmail(email)`. */
  function IsExistEmail(users: seq<User>, email: string): (r: bool)
    ensures r <==> exists k :: 0 <= k < |users| && users[k].email == email
  {
    UserByEmail(users, email).Some?
  }

  /**
   * `validateUser(email, pass)`. Its findOne uses the default select, which
   * leaves out the stored password, so `user.password === pass` compares the
   * initializer's empty string with `pass`: the first user with the email is
   * returned, without its password, exactly when `pass` is empty.
   */
  function ValidateUser(users: seq<User>, email: string, pass: string): (r: Option<Profile>)
    ensures r.Some? <==> UserByEmail(users, email).Some? && pass == ""
    ensures r.Some? ==> r.value == ProfileOf(users[UserByEmail(users, email).value])
    ensures r.Some? ==> r.value.email == email
  {
    match UserByEmail(users, email)
    case None => None
    case Some(k) =>
      var loaded := DefaultSelect(users[k]);
      if loaded.password == pass then Some(loaded.profile) else None
  }

  /** The stored password plays no part: whatever it is, only the empty password is accepted. */
  lemma ValidateUserIgnoresStoredPassword(users: seq<User>, email: string, pass: string, k: nat, stored: string)
    requires k < |users|
    ensures ValidateUser(users[k := users[k].(password := stored)], email, pass).Some? <==>
      ValidateUser(users, email, pass).Some?
  {
    var users' := users[k := users[k].(password := stored)];
    assert forall i :: 0 <= i < |users| ==> users'[i].email == users[i].email;
    match UserByEmail(users, email)
    case None =>
    case Some(j) =>
  }

  /**
   * `getUserFromToken(token)`: `verify` is `jwtService.verify` with the access
   * secret at time `now`, giving the subject of a valid, unexpired token.
   */
  function GetUserFromToken(users: seq<User>, verify: (string, int) -> Option<Id>, token: string, now: int)
    : (r: Option<Profile>)
    ensures r.Some? ==> verify(token, now).Some? && r.value.id == verify(token, now).value
    ensures r.Some? ==> exists k :: 0 <= k < |users| && ProfileOf(users[k]) == r.value
    ensures verify(token, now).None? ==> r.None?
    ensures verify(token, now).Some? && (exists k :: 0 <= k < |users| && users[k].id == verify(token, now).value)
      ==> r.Some?
  {
    match verify(token, now)
    case None => None
    case Some(sub) =>
      match UserById(users, sub)
      case None => None
      case Some(k) => Some(ProfileOf(users[k]))
  }

  /** The claims of `createAccessToken(user)`; reading `user.role.title` of a user without role throws. */
  function ClaimsOf(u: User, roles: seq<Role>): (r: Result<AccessClaims>)
    ensures r.Ok? ==> r.value.sub == u.id && r.value.email == u.email && r.value.fullName == u.fullName
    ensures r.Ok? <==> u.roleId.Some? && First(roles, (g: Role) => g.id == u.roleId.value).Some?
    ensures r.Ok? ==> r.value.role == roles[First(roles, (g: Role) => g.id == u.roleId.value).value].title
    ensures r.Err? ==> r.error == Crash
  {
    match u.roleId
    case None => Err(Crash)
    case Some(rid) =>
      match First(roles, (g: Role) => g.id == rid)
      case None => Err(Crash)
      case Some(k) => Ok(AccessClaims(u.email, u.id, roles[k].title, u.fullName))
  }

  /**
   * The credential check of `login`: the first user with the email, whose
   * stored hash bcrypt accepts for the password. An unknown email and a wrong
   * password fail with the same error.
   */
  function CheckCredentials(users: seq<User>, email: string, password: string, matches: (string, string) -> bool)
    : (r: Result<nat>)
    ensures r.Ok? ==> r.value < |users| && users[r.value].email == email
    ensures r.Ok? ==> matches(password, users[r.value].password)
    ensures r.Ok? ==> forall k :: 0 <= k < r.value ==> users[k].email != email
    ensures r.Err? ==> r.error == Unauthorized(InvalidCredentials)
    ensures (forall k :: 0 <= k < |users| ==> users[k].email != email) ==> r.Err?
    ensures UserByEmail(users, email).Some? && matches(password, users[UserByEmail(users, email).value].password) ==>
      r == Ok(UserByEmail(users, email).value)
  {
    match UserByEmail(users, email)
    case None => Err(Unauthorized(InvalidCredentials))
    case Some(k) =>
      if matches(password, users[k].password) then Ok(k) else Err(Unauthorized(InvalidCredentials))
  }

  /** A caller cannot tell an unknown email from a wrong password: both checks fail identically. */
  lemma LoginFailuresIndistinguishable(
    users: seq<User>, unknown: string, p1: string, known: string, p2: string,
    matches: (string, string) -> bool)
    requires forall k :: 0 <= k < |users| ==> users[k].email != unknown
    requires exists k :: 0 <= k < |users| && users[k].email == known
    requires forall k :: 0 <= k < |users| && users[k].email == known ==> !matches(p2, users[k].password)
    ensures CheckCredentials(users, unknown, p1, matches) == CheckCredentials(users, known, p2, matches)
    ensures CheckCredentials(users, known, p2, matches) == Err(Unauthorized(InvalidCredentials))
  {
  }

  class AuthService {
    const db: Database
    /** `bcrypt.hashSync(password, salt)`. */
    const hash: (string, string) -> string
    /** `bcrypt.compare(password, hash)`. */
    const matches: (string, string) -> bool
    /** `jwtService.signAsync(claims)` with the access secret and duration, at time `now`. */
    const sign: (AccessClaims, int) -> string
    /** REFRESH_TOKEN_DURATION. */
    const refreshDuration: DurationSetting

    constructor (db: Database, hash: (string, string) -> string, matches: (string, string) -> bool,
                 sign: (AccessClaims, int) -> string, refreshDuration: DurationSetting)
      ensures this.db == db && this.hash == hash && this.matches == matches
      ensures this.sign == sign && this.refreshDuration == refreshDuration
    {
      this.db := db;
      this.hash := hash;
      this.matches := matches;
      this.sign := sign;
      this.refreshDuration := refreshDuration;
    }

    /**
     * `register(dto)`: reuses the first USER role, creating one only when none
     * exists, and appends the user with the bcrypt hash of the password. The
     * duplicate-email check is the controller's, not this method's.
     */
    method Register(email: string, password: string, fullName: string, salt: string, userId: Id, roleId: Id)
      modifies db`users, db`roles
      ensures var k := RoleByTitle(old(db.roles), USER);
        && (k.Some? ==> db.roles == old(db.roles))
        && (k.None? ==> db.roles == old(db.roles) + [Role(roleId, USER)])
        && db.users == old(db.users) + [User(userId, email, hash(password, salt), false, fullName,
             Some(if k.Some? then old(db.roles)[k.value].id else roleId), None, None, None)]
      ensures NoAccessTokenStored(old(db.users)) ==> NoAccessTokenStored(db.users)
    {
      var rid := roleId;
      var k := RoleByTitle(db.roles, USER);
      if k.None? {
        db.roles := db.roles + [Role(roleId, USER)];
      } else {
        rid := db.roles[k.value].id;
      }
      db.users := db.users + [User(userId, email, hash(password, salt), false, fullName, Some(rid), None, None, None)];
    }

    /**
     * `createNewRefreshToken(userId, tokenId)`: `tokenId` is ignored and no access
     * token is stored. The token is `uuid1-uuid2`; its expiry is now plus the
     * configured minutes, truncated to its day.
     */
    method CreateNewRefreshToken(userId: Id, tokenId: string, uuid1: string, uuid2: string, now: int)
      returns (r: Result<string>)
      modifies db`users
      ensures !refreshDuration.Minutes? ==> r == Err(Forbidden("Secrets not found")) && db.users == old(db.users)
      ensures refreshDuration.Minutes? && UserById(old(db.users), userId).None? ==>
        r == Err(Unauthorized("User not found")) && db.users == old(db.users)
      ensures refreshDuration.Minutes? && UserById(old(db.users), userId).Some? ==>
        && r == Ok(uuid1 + "-" + uuid2)
        && db.users == StoreRefreshToken(old(db.users), userId, uuid1 + "-" + uuid2,
                                         IssuedExpiry(now, refreshDuration.value))
      ensures NoAccessTokenStored(old(db.users)) ==> NoAccessTokenStored(db.users)
    {
      if !refreshDuration.Minutes? {
        return Err(Forbidden("Secrets not found"));
      }
      var k := UserById(db.users, userId);
      if k.None? {
        return Err(Unauthorized("User not found"));
      }
      var token := uuid1 + "-" + uuid2;
      db.users := StoreRefreshToken(db.users, userId, token, IssuedExpiry(now, refreshDuration.value));
      r := Ok(token);
    }

    /** `createAccessToken(user)`. */
    function CreateAccessToken(u: User, now: int): (r: Result<string>)
      reads db`roles
      ensures r.Ok? <==> u.roleId.Some? && First(db.roles, (g: Role) => g.id == u.roleId.value).Some?
      ensures r.Ok? ==>
        r.value == sign(AccessClaims(u.email, u.id, db.roles[First(db.roles, (g: Role) => g.id == u.roleId.value).value].title,
                                     u.fullName), now)
      ensures r.Err? ==> r.error == Crash
    {
      match ClaimsOf(u, db.roles)
      case Err(e) => Err(e)
      case Ok(c) => Ok(sign(c, now))
    }

    /**
     * `login(dto)`: the credential check, then an access token for the user and
     * a new refresh token stored on the user's row.
     */
    method Login(email: string, password: string, uuid1: string, uuid2: string, now: int)
      returns (r: Result<Tokens>)
      modifies db`users
      ensures match CheckCredentials(old(db.users), email, password, matches)
        case Err(e) => r == Err(e) && db.users == old(db.users)
        case Ok(k) =>
          var u := old(db.users)[k];
          match CreateAccessToken(u, now)
          case Err(e) => r == Err(e) && db.users == old(db.users)
          case Ok(access) =>
            if !refreshDuration.Minutes? then
              r == Err(Forbidden("Secrets not found")) && db.users == old(db.users)
            else
              && r == Ok(Tokens(access, uuid1 + "-" + uuid2))
              && db.users == StoreRefreshToken(old(db.users), u.id, uuid1 + "-" + uuid2,
                                               IssuedExpiry(now, refreshDuration.value))
      ensures r.Err? && r.error.Unauthorized? ==> r.error.message == InvalidCredentials
      ensures NoAccessTokenStored(old(db.users)) ==> NoAccessTokenStored(db.users)
    {
      var check := CheckCredentials(db.users, email, password, matches);
      if check.Err? {
        return Err(check.error);
      }
      var u := db.users[check.value];
      var access := CreateAccessToken(u, now);
      if access.Err? {
        return Err(access.error);
      }
      var refresh := CreateNewRefreshToken(u.id, access.value, uuid1, uuid2, now);
      if refresh.Err? {
        return Err(refresh.error);
      }
      r := Ok(Tokens(access.value, refresh.value));
    }

    /** `logout(userId)`: clears the three token columns; an unknown id dereferences null. */
    method Logout(userId: Id) returns (r: Outcome)
      modifies db`users
      ensures UserById(old(db.users), userId).None? ==> r == Fail(Crash) && db.users == old(db.users)
      ensures UserById(old(db.users), userId).Some? ==> r == Pass && db.users == ClearTokens(old(db.users), userId)
      ensures NoAccessTokenStored(old(db.users)) ==> NoAccessTokenStored(db.users)
    {
      if UserById(db.users, userId).None? {
        return Fail(Crash);
      }
      db.users := ClearTokens(db.users, userId);
      r := Pass;
    }

    /**
     * `refreshAccessToken(dto)`: the row holding the refresh token, then the
     * expiry check (which clears that user's tokens), then the access-token
     * pairing, then a new pair as `login` issues it.
     */
    method RefreshAccessToken(dto: RefreshRequest, uuid1: string, uuid2: string, now: int)
      returns (r: Result<Tokens>)
      modifies db`users
      ensures match TokenOwner(old(db.users), dto.refreshToken)
        case None => r == Err(Unauthorized("Invalid refresh token")) && db.users == old(db.users)
        case Some(k) =>
          var u := old(db.users)[k];
          if RefreshExpired(u, now) then
            && r == Err(Unauthorized("Refresh token has expired. Please login"))
            && db.users == ClearTokens(old(db.users), u.id)
          else if u.accessToken != dto.accessToken then
            r == Err(Unauthorized("Invalid access token")) && db.users == old(db.users)
          else
            match CreateAccessToken(u, now)
            case Err(e) => r == Err(e) && db.users == old(db.users)
            case Ok(access) =>
              if !refreshDuration.Minutes? then
                r == Err(Forbidden("Secrets not found")) && db.users == old(db.users)
              else
                && r == Ok(Tokens(access, uuid1 + "-" + uuid2))
                && db.users == StoreRefreshToken(old(db.users), u.id, uuid1 + "-" + uuid2,
                                                 IssuedExpiry(now, refreshDuration.value))
      ensures NoAccessTokenStored(old(db.users)) ==> NoAccessTokenStored(db.users)
      ensures NoAccessTokenStored(old(db.users)) && dto.accessToken.Some? ==> r.Err?
    {
      var k := TokenOwner(db.users, dto.refreshToken);
      if k.None? {
        return Err(Unauthorized("Invalid refresh token"));
      }
      var u := db.users[k.value];
      if RefreshExpired(u, now) {
        db.users := ClearTokens(db.users, u.id);
        return Err(Unauthorized("Refresh token has expired. Please login"));
      }
      if u.accessToken != dto.accessToken {
        return Err(Unauthorized("Invalid access token"));
      }
      var access := CreateAccessToken(u, now);
      if access.Err? {
        return Err(access.error);
      }
      var refresh := CreateNewRefreshToken(u.id, access.value, uuid1, uuid2, now);
      if refresh.Err? {
        return Err(refresh.error);
      }
      r := Ok(Tokens(access.value, refresh.value));
    }

    /**
     * `validRefreshToken(email, refreshToken)`: the row holding both; if it is
     * expired its tokens are cleared and null is returned. When no row matches,
     * the method writes through the null `user`, which throws.
     */
    method ValidRefreshToken(email: string, refreshToken: string, now: int) returns (r: Result<Option<SessionUser>>)
      modifies db`users
      ensures match SessionOwner(old(db.users), email, refreshToken)
        case None => r == Err(Crash) && db.users == old(db.users)
        case Some(k) =>
          var u := old(db.users)[k];
          if RefreshExpired(u, now) then r == Ok(None) && db.users == ClearTokens(old(db.users), u.id)
          else r == Ok(Some(SessionUser(u.id, u.fullName, u.email, u.refreshTokenExp))) && db.users == old(db.users)
      ensures NoAccessTokenStored(old(db.users)) ==> NoAccessTokenStored(db.users)
    {
      var k := SessionOwner(db.users, email, refreshToken);
      if k.None? {
        return Err(Crash);
      }
      var u := db.users[k.value];
      if RefreshExpired(u, now) {
        db.users := ClearTokens(db.users, u.id);
        return Ok(None);
      }
      r := Ok(Some(SessionUser(u.id, u.fullName, u.email, u.refreshTokenExp)));
    }
  }
}

=== FILE: common.dfy ===
/**
 * Shared vocabulary of the services: keys, optional values, the exceptions the
 * services throw, and the two table queries every repository call reduces to
 * (`findOne` is the first row a where-clause selects, `find` the rows it selects).
 */
module Common {

  /** Primary keys. The source's keys are generated uuid strings; only identity matters here. */
  type Id = nat

  datatype Option<T> = None | Some(value: T)

  /** The exceptions the services throw, each with its message. */
  datatype Error =
    | BadRequest(message: string)
    | Unauthorized(message: string)
    | Forbidden(message: string)
    | NotFound(message: string)
    | Failure(message: string)   // a plain `Error` thrown by a service
    | Crash                      // a TypeError: a property read through null or undefined

  /** A value, or the exception thrown instead of returning it. */
  datatype Result<T> = Ok(value: T) | Err(error: Error)

  /** The outcome of an operation that returns nothing. */
  datatype Outcome = Pass | Fail(error: Error)

  /** Index of the first row the where-clause `p` selects: what `findOne` returns. */
  function First<T>(rows: seq<T>, p: T -> bool): (r: Option<nat>)
    ensures r.Some? ==> r.value < |rows| && p(rows[r.value])
    ensures r.Some? ==> forall j :: 0 <= j < r.value ==> !p(rows[j])
    ensures r.None? <==> forall j :: 0 <= j < |rows| ==> !p(rows[j])
  {
    if |rows| == 0 then None
    else if p(rows[0]) then Some(0)
    else
      match First(rows[1..], p)
      case None => None
      case Some(k) => Some(k + 1)
  }

  /** The rows the where-clause `p` selects, in table order: what `find` returns. */
  function Where<T>(rows: seq<T>, p: T -> bool): (r: seq<T>)
    ensures |r| <= |rows|
    ensures forall i :: 0 <= i < |r| ==> r[i] in rows && p(r[i])
    ensures forall i :: 0 <= i < |rows| && p(rows[i]) ==> rows[i] in r
    ensures multiset(r) <= multiset(rows)
    ensures (forall i :: 0 <= i < |rows| ==> !p(rows[i])) ==> r == []
  {
    if |rows| == 0 then []
    else
      assert rows == [rows[0]] + rows[1..];
      if p(rows[0]) then [rows[0]] + Where(rows[1..], p) else Where(rows[1..], p)
  }
}

=== FILE: entities.dfy ===
/**
 * The persisted records of the task tracker and the in-memory database that
 * holds one table per repository. A table is a sequence of rows in scan order;
 * soft-removed rows stay in their table with `deleted` set, and every `find`
 * of the services skips them (TypeORM's delete-date column).
 */
module Entities {
  import opened Common

  datatype RoleType = ADMIN | USER

  datatype Role = Role(id: Id, title: RoleType)

  /**
   * A user row. `password` holds bcrypt's output; the three token columns are
   * nullable and hidden from default selects. `refreshTokenExp` is a `date`
   * column, kept as the instant (ms) of the start of that day.
   */
  datatype User = User(
    id: Id,
    email: string,
    password: string,
    isVerified: bool,
    fullName: string,
    roleId: Option<Id>,
    accessToken: Option<string>,
    refreshToken: Option<string>,
    refreshTokenExp: Option<int>)

  datatype Room = Room(id: Id, name: string, description: string, deleted: bool)

  /** The link between a user and a room; `userId`/`roomId` are nullable foreign keys. */
  datatype UserRoom = UserRoom(id: Id, userId: Option<Id>, roomId: Option<Id>, isOwner: bool, deleted: bool)

  /** The members of the `TaskStatus` enum the services name; its other members stay abstract. */
  datatype TaskStatus = TODO | DONE | OtherStatus(name: string)

  /** A status as it arrives in a request: a member of `TaskStatus`, or any other text. */
  datatype StatusText = Listed(status: TaskStatus) | Unlisted(text: string)

  datatype Task = Task(
    id: Id,
    title: string,
    description: string,
    dueDate: int,
    status: StatusText,
    isComplete: bool,
    review: string,
    userId: Option<Id>,
    roomId: Option<Id>,
    deleted: bool)

  datatype Notification = Notification(
    id: Id, title: string, body: string, isRead: bool, userId: Option<Id>, createdAt: int)

  /** One device session; `refreshTokenExp` is hidden from default selects (select: false). */
  datatype LoginSession = LoginSession(
    id: Id,
    userId: Option<Id>,
    fcmToken: Option<string>,
    accessToken: string,
    refreshToken: string,
    refreshTokenExp: int,
    deleted: bool)

  /** A message handed to Firebase Cloud Messaging. */
  datatype Push = Push(token: string, title: string, body: string)

  /** The database: one table per repository, and the stream of messages sent to Firebase. */
  class Database {
    var users: seq<User>
    var roles: seq<Role>
    var rooms: seq<Room>
    var userRooms: seq<UserRoom>
    var tasks: seq<Task>
    var notifications: seq<Notification>
    var loginSessions: seq<LoginSession>
    var outbox: seq<Push>

    constructor ()
      ensures users == [] && roles == [] && rooms == [] && userRooms == []
      ensures tasks == [] && notifications == [] && loginSessions == [] && outbox == []
    {
      users, roles, rooms, userRooms := [], [], [], [];
      tasks, notifications, loginSessions, outbox := [], [], [], [];
    }
  }

  /** `findOne({ where: { id } })` on the users table. */
  function UserById(users: seq<User>, id: Id): (r: Option<nat>)
    ensures r.Some? ==> r.value < |users| && users[r.value].id == id
    ensures r.None? <==> forall k :: 0 <= k < |users| ==> users[k].id != id
  {
    First(users, (u: User) => u.id == id)
  }

  /** `findOne({ where: { email } })` on the users table. */
  function UserByEmail(users: seq<User>, email: string): (r: Option<nat>)
    ensures r.Some? ==> r.value < |users| && users[r.value].email == email
    ensures r.Some? ==> forall k :: 0 <= k < r.value ==> users[k].email != email
    ensures r.None? <==> forall k :: 0 <= k < |users| ==> users[k].email != email
  {
    First(users, (u: User) => u.email == email)
  }

  /** `findOne({ where: { id } })` on the rooms table: soft-removed rooms are not found. */
  function RoomById(rooms: seq<Room>, id: Id): (r: Option<nat>)
    ensures r.Some? ==> r.value < |rooms| && rooms[r.value].id == id && !rooms[r.value].deleted
    ensures r.None? <==> forall k :: 0 <= k < |rooms| ==> rooms[k].id != id || rooms[k].deleted
  {
    First(rooms, (m: Room) => !m.deleted && m.id == id)
  }

  /** The live link of `userId` to `roomId` that `findOne` returns, if any. */
  function LinkOf(links: seq<UserRoom>, userId: Id, roomId: Id): (r: Option<nat>)
    ensures r.Some? ==> r.value < |links| && !links[r.value].deleted
    ensures r.Some? ==> links[r.value].userId == Some(userId) && links[r.value].roomId == Some(roomId)
    ensures r.None? <==> forall k :: 0 <= k < |links| ==>
      links[k].deleted || links[k].userId != Some(userId) || links[k].roomId != Some(roomId)
  {
    First(links, (l: UserRoom) => !l.deleted && l.userId == Some(userId) && l.roomId == Some(roomId))
  }

  /** `findOne({ where: { id } })` on the tasks table: soft-deleted tasks are not found. */
  function TaskById(tasks: seq<Task>, id: Id): (r: Option<nat>)
    ensures r.Some? ==> r.value < |tasks| && tasks[r.value].id == id && !tasks[r.value].deleted
    ensures r.None? <==> forall k :: 0 <= k < |tasks| ==> tasks[k].id != id || tasks[k].deleted
  {
    First(tasks, (t: Task) => !t.deleted && t.id == id)
  }

  /** Decimal rendering of a key, as a template literal interpolates it. */
  function KeyText(n: nat): string
  {
    if n < 10 then [DigitChar(n)] else KeyText(n / 10) + [DigitChar(n % 10)]
  }

  function DigitChar(d: nat): char
    requires d < 10
  {
    "0123456789"[d]
  }
}

=== FILE: invite_code.dfy ===
/**
 * Invite links of rooms: a link is the configured prefix, a slash, and the
 * room's invite uuid. A link is accepted for a uuid exactly when it is the
 * link generated for that uuid.
 */
module InviteCode {

  predicate StartsWith(s: string, prefix: string)
  {
    |prefix| <= |s| && s[..|prefix|] == prefix
  }

  /** `generateInviteCode(uuidInviteCode, prefix)`. */
  function GenerateInviteCode(uuid: string, prefix: string): (link: string)
    ensures |link| == |prefix| + 1 + |uuid|
    ensures StartsWith(link, prefix + "/")
    ensures link[|prefix| + 1..] == uuid
  {
    prefix + "/" + uuid
  }

  /** `compareInviteCode(inviteCodeLink, uuidInviteCode, prefix)`. */
  function CompareInviteCode(link: string, uuid: string, prefix: string): (ok: bool)
    ensures ok ==> StartsWith(link, prefix + "/")
    ensures ok ==> link[|prefix| + 1..] == uuid
  {
    StartsWith(link, prefix + "/") && link == prefix + "/" + uuid
  }

  /** A generated link is accepted for the uuid it was generated from. */
  lemma RoundTrip(uuid: string, prefix: string)
    ensures CompareInviteCode(GenerateInviteCode(uuid, prefix), uuid, prefix)
  {
  }

  /** The prefix test adds nothing: a link is accepted iff it equals the generated one. */
  lemma CompareIsEquality(link: string, uuid: string, prefix: string)
    ensures CompareInviteCode(link, uuid, prefix) <==> link == GenerateInviteCode(uuid, prefix)
  {
    if link == GenerateInviteCode(uuid, prefix) {
      assert link[..|prefix + "/"|] == prefix + "/";
    }
  }

  /** Under one prefix, a link generated for one uuid is refused for every other uuid. */
  lemma {:induction false} OtherUuidRejected(uuid: string, other: string, prefix: string)
    requires uuid != other
    ensures !CompareInviteCode(GenerateInviteCode(other, prefix), uuid, prefix)
  {
  }

  /** Links generated under one prefix for different uuids differ. */
  lemma {:induction false} GenerateInjective(u1: string, u2: string, prefix: string)
    requires GenerateInviteCode(u1, prefix) == GenerateInviteCode(u2, prefix)
    ensures u1 == u2
  {
    assert GenerateInviteCode(u1, prefix)[|prefix| + 1..] == u1;
    assert GenerateInviteCode(u2, prefix)[|prefix| + 1..] == u2;
  }
}

=== FILE: notification_service.dfy ===
/**
 * Push notifications. A user's live login sessions carry the Firebase
 * Cloud Messaging tokens of their devices; `sendNotificationAndSave` fans a
 * message out to them and stores it as a notification row. Messages handed to
 * Firebase are appended to the database's `outbox`.
 */
module Notifications {
  import opened Common
  import opened Entities

  const TokenExpired: string := "Refresh token expired"

  /** The intended expiry test: the session's refresh token expired before `now`. */
  predicate SessionExpired(s: LoginSession, now: int)
  {
    s.refreshTokenExp < now
  }

  /** A JavaScript `Date`: an invalid date, or an instant. */
  datatype JsDate = InvalidDate | At(instant: int)

  /**
   * `new Date(loginSession.refreshTokenExp)` for a session loaded by the
   * service's queries: the column is `select: false`, so the property is
   * undefined and the date is invalid.
   */
  function LoadedExpiry(s: LoginSession): JsDate
  {
    InvalidDate
  }

  /** `d < new Date()`: a comparison involving an invalid date (NaN) is false. */
  predicate Before(d: JsDate, now: int)
  {
    d.At? && d.instant < now
  }

  /** The expiry test as written. */
  predicate SessionExpiredAsLoaded(s: LoginSession, now: int)
  {
    Before(LoadedExpiry(s), now)
  }

  /** The test as written never fires, so an expired session is treated as live. */
  lemma {:induction false} ExpiryCheckNeverFires(s: LoginSession, now: int)
    requires SessionExpired(s, now)
    ensures !SessionExpiredAsLoaded(s, now)
    ensures LoadedExpiry(s) == InvalidDate
  {
  }

  /** The login sessions of a user that `find` returns, in table order. */
  function UserSessions(sessions: seq<LoginSession>, userId: Id): (r: seq<LoginSession>)
    ensures forall i :: 0 <= i < |r| ==> r[i] in sessions && !r[i].deleted && r[i].userId == Some(userId)
    ensures forall k :: 0 <= k < |sessions| && !sessions[k].deleted && sessions[k].userId == Some(userId) ==>
      sessions[k] in r
  {
    Where(sessions, (s: LoginSession) => !s.deleted && s.userId == Some(userId))
  }

  /** `!loginSession?.fcmToken` is false: the session has a non-empty device token. */
  predicate HasToken(s: LoginSession)
  {
    s.fcmToken.Some? && s.fcmToken.value != ""
  }

  /** What a fan-out does: the messages sent, and the expired session that stopped it, if any. */
  datatype Delivery = Delivery(pushes: seq<Push>, expired: Option<LoginSession>)

  /**
   * The loop of `sendNotificationToUser` over `sessions`: an expired session
   * stops it with an error; a session without a token ends it quietly,
   * skipping every later session; every other session gets the message.
   */
  function Fanout(sessions: seq<LoginSession>, title: string, body: string, now: int): Delivery
    decreases |sessions|
  {
    if |sessions| == 0 then Delivery([], None)
    else if SessionExpired(sessions[0], now) then Delivery([], Some(sessions[0]))
    else if !HasToken(sessions[0]) then Delivery([], None)
    else
      var rest := Fanout(sessions[1..], title, body, now);
      Delivery([Push(sessions[0].fcmToken.value, title, body)] + rest.pushes, rest.expired)
  }

  /**
   * Every message goes, with the given title and body, to the token of a
   * live session that has one; at most one per session; an expired session
   * reported is one of the sessions.
   */
  lemma {:induction false} FanoutSound(sessions: seq<LoginSession>, title: string, body: string, now: int)
    ensures var d := Fanout(sessions, title, body, now);
      && |d.pushes| <= |sessions|
      && (forall i :: 0 <= i < |d.pushes| ==>
            && d.pushes[i].title == title && d.pushes[i].body == body
            && exists k :: 0 <= k < |sessions| && HasToken(sessions[k]) && !SessionExpired(sessions[k], now)
                 && sessions[k].fcmToken == Some(d.pushes[i].token))
      && (d.expired.Some? ==> d.expired.value in sessions && SessionExpired(d.expired.value, now))
    decreases |sessions|
  {
    if |sessions| > 0 && !SessionExpired(sessions[0], now) && HasToken(sessions[0]) {
      FanoutSound(sessions[1..], title, body, now);
      var d := Fanout(sessions, title, body, now);
      var rest := Fanout(sessions[1..], title, body, now);
      forall i | 1 <= i < |d.pushes|
        ensures exists k :: 0 <= k < |sessions| && HasToken(sessions[k]) && !SessionExpired(sessions[k], now)
                 && sessions[k].fcmToken == Some(d.pushes[i].token)
      {
        assert d.pushes[i] == rest.pushes[i - 1];
        var k :| 0 <= k < |sessions[1..]| && HasToken(sessions[1..][k]) && !SessionExpired(sessions[1..][k], now)
                 && sessions[1..][k].fcmToken == Some(rest.pushes[i - 1].token);
        assert sessions[k + 1] == sessions[1..][k];
      }
    }
  }

  /** When no session is expired and every one has a token, every session gets the message, in order. */
  lemma {:induction false} FanoutComplete(sessions: seq<LoginSession>, title: string, body: string, now: int)
    requires forall k :: 0 <= k < |sessions| ==> !SessionExpired(sessions[k], now) && HasToken(sessions[k])
    ensures Fanout(sessions, title, body, now).expired.None?
    ensures |Fanout(sessions, title, body, now).pushes| == |sessions|
    ensures forall k :: 0 <= k < |sessions| && HasToken(sessions[k]) ==>
      Fanout(sessions, title, body, now).pushes[k] == Push(sessions[k].fcmToken.value, title, body)
    decreases |sessions|
  {
    if |sessions| > 0 {
      FanoutComplete(sessions[1..], title, body, now);
      var rest := Fanout(sessions[1..], title, body, now);
      forall k | 1 <= k < |sessions|
        ensures Fanout(sessions, title, body, now).pushes[k] == Push(sessions[k].fcmToken.value, title, body)
      {
        assert sessions[k] == sessions[1..][k - 1];
      }
    }
  }

  /**
   * An expired session stops the loop: it is the one reported, and only the
   * sessions before it were sent to.
   */
  lemma {:induction false} ExpiredSessionStopsLoop(sessions: seq<LoginSession>, i: nat, title: string, body: string, now: int)
    requires i < |sessions| && SessionExpired(sessions[i], now)
    requires forall k :: 0 <= k < i ==> !SessionExpired(sessions[k], now) && HasToken(sessions[k])
    ensures Fanout(sessions, title, body, now).expired == Some(sessions[i])
    ensures |Fanout(sessions, title, body, now).pushes| == i
    decreases i
  {
    if i > 0 {
      assert sessions[i] == sessions[1..][i - 1];
      forall k | 0 <= k < i - 1
        ensures !SessionExpired(sessions[1..][k], now) && HasToken(sessions[1..][k])
      {
        assert sessions[1..][k] == sessions[k + 1];
      }
      ExpiredSessionStopsLoop(sessions[1..], i - 1, title, body, now);
    }
  }

  /** The fan-out from session `i` on, by index: the loop's view of `Fanout`. */
  function FanoutFrom(sessions: seq<LoginSession>, i: nat, title: string, body: string, now: int): Delivery
    requires i <= |sessions|
    decreases |sessions| - i
  {
    if i == |sessions| then Delivery([], None)
    else if SessionExpired(sessions[i], now) then Delivery([], Some(sessions[i]))
    else if !HasToken(sessions[i]) then Delivery([], None)
    else
      var rest := FanoutFrom(sessions, i + 1, title, body, now);
      Delivery([Push(sessions[i].fcmToken.value, title, body)] + rest.pushes, rest.expired)
  }

  /** The indexed fan-out from `i` is the fan-out of the sessions from `i` on. */
  lemma {:induction false} FanoutFromIsFanout(sessions: seq<LoginSession>, i: nat, title: string, body: string, now: int)
    requires i <= |sessions|
    ensures FanoutFrom(sessions, i, title, body, now) == Fanout(sessions[i..], title, body, now)
    decreases |sessions| - i
  {
    if i < |sessions| {
      FanoutFromIsFanout(sessions, i + 1, title, body, now);
      assert sessions[i..][0] == sessions[i] && sessions[i..][1..] == sessions[i + 1..];
    }
  }

  /** A first session without a token silences every later session, whatever tokens they hold. */
  lemma TokenlessSessionSilencesRest(sessions: seq<LoginSession>, title: string, body: string, now: int)
    requires |sessions| > 0 && !SessionExpired(sessions[0], now) && !HasToken(sessions[0])
    ensures Fanout(sessions, title, body, now) == Delivery([], None)
  {
  }

  /** `softRemove(loginSession)`: every row with the session's key gets its delete date. */
  function SoftRemoveSession(sessions: seq<LoginSession>, id: Id): (r: seq<LoginSession>)
    ensures |r| == |sessions|
    ensures forall k :: 0 <= k < |sessions| && sessions[k].id == id ==> r[k] == sessions[k].(deleted := true)
    ensures forall k :: 0 <= k < |sessions| && sessions[k].id != id ==> r[k] == sessions[k]
  {
    seq(|sessions|, k requires 0 <= k < |sessions| =>
      if sessions[k].id == id then sessions[k].(deleted := true) else sessions[k])
  }

  /** `save(loginSession)` after `fcmToken` was set: every row with the session's key gets the token. */
  function StoreFcmToken(sessions: seq<LoginSession>, id: Id, fcmToken: string): (r: seq<LoginSession>)
    ensures |r| == |sessions|
    ensures forall k :: 0 <= k < |sessions| && sessions[k].id == id ==> r[k] == sessions[k].(fcmToken := Some(fcmToken))
    ensures forall k :: 0 <= k < |sessions| && sessions[k].id != id ==> r[k] == sessions[k]
  {
    seq(|sessions|, k requires 0 <= k < |sessions| =>
      if sessions[k].id == id then sessions[k].(fcmToken := Some(fcmToken)) else sessions[k])
  }

  /** The live session `updateFcmToken` looks up: its refresh token and its user. */
  function SessionFor(sessions: seq<LoginSession>, userId: Id, refreshToken: string): (r: Option<nat>)
    ensures r.Some? ==> r.value < |sessions| && !sessions[r.value].deleted
    ensures r.Some? ==> sessions[r.value].userId == Some(userId) && sessions[r.value].refreshToken == refreshToken
    ensures r.None? <==> forall k :: 0 <= k < |sessions| ==>
      sessions[k].deleted || sessions[k].userId != Some(userId) || sessions[k].refreshToken != refreshToken
  {
    First(sessions, (s: LoginSession) => !s.deleted && s.userId == Some(userId) && s.refreshToken == refreshToken)
  }

  /** The newest-first order of `order: { createdAt: 'DESC' }`. */
  predicate NewestFirst(ns: seq<Notification>)
  {
    forall i, j :: 0 <= i < j < |ns| ==> ns[i].createdAt >= ns[j].createdAt
  }

  /** Inserts `n` before the first notification not newer than it. */
  function InsertNewest(n: Notification, ns: seq<Notification>): (r: seq<Notification>)
    ensures multiset(r) == multiset(ns) + multiset{n}
    ensures |r| == |ns| + 1
  {
    if |ns| == 0 then [n]
    else if n.createdAt >= ns[0].createdAt then [n] + ns
    else
      assert ns == [ns[0]] + ns[1..];
      [ns[0]] + InsertNewest(n, ns[1..])
  }

  /** Inserting a notification no newer than `bound` among notifications no newer than `bound` keeps them all within it. */
  lemma {:induction false} InsertNewestBounded(bound: int, n: Notification, ns: seq<Notification>)
    requires n.createdAt <= bound
    requires forall i :: 0 <= i < |ns| ==> ns[i].createdAt <= bound
    ensures forall j :: 0 <= j < |InsertNewest(n, ns)| ==> InsertNewest(n, ns)[j].createdAt <= bound
    decreases |ns|
  {
    if |ns| > 0 && n.createdAt < ns[0].createdAt {
      InsertNewestBounded(bound, n, ns[1..]);
    }
  }

  lemma {:induction false} InsertNewestSorted(n: Notification, ns: seq<Notification>)
    requires NewestFirst(ns)
    ensures NewestFirst(InsertNewest(n, ns))
    decreases |ns|
  {
    if |ns| > 0 && n.createdAt < ns[0].createdAt {
      InsertNewestSorted(n, ns[1..]);
      InsertNewestBounded(ns[0].createdAt, n, ns[1..]);
    }
  }

  /** The database's ordering of the selected rows; rows with equal `createdAt` keep table order. */
  function SortNewest(ns: seq<Notification>): (r: seq<Notification>)
    ensures multiset(r) == multiset(ns)
    ensures |r| == |ns|
  {
    if |ns| == 0 then []
    else
      assert ns == [ns[0]] + ns[1..];
      InsertNewest(ns[0], SortNewest(ns[1..]))
  }

  lemma {:induction false} SortNewestSorted(ns: seq<Notification>)
    ensures NewestFirst(SortNewest(ns))
    decreases |ns|
  {
    if |ns| > 0 {
      SortNewestSorted(ns[1..]);
      InsertNewestSorted(ns[0], SortNewest(ns[1..]));
    }
  }

  /** All notifications of a user, newest first. */
  function Inbox(notifications: seq<Notification>, userId: Id): (r: seq<Notification>)
    ensures NewestFirst(r)
    ensures multiset(r) == multiset(Where(notifications, (n: Notification) => n.userId == Some(userId)))
  {
    var mine := Where(notifications, (n: Notification) => n.userId == Some(userId));
    SortNewestSorted(mine);
    SortNewest(mine)
  }

  /** The rows skipped before page `page`: `pageSize` for every earlier page. */
  function Offset(page: int, pageSize: int): (skip: nat)
    requires page >= 1 && pageSize >= 1
    decreases page
  {
    if page == 1 then 0 else Offset(page - 1, pageSize) + pageSize
  }

  /** The offset is the source's `(page - 1) * pageSize`. */
  lemma {:induction false} OffsetIsProduct(page: int, pageSize: int)
    requires page >= 1 && pageSize >= 1
    ensures Offset(page, pageSize) == (page - 1) * pageSize
    decreases page
  {
    if page > 1 {
      OffsetIsProduct(page - 1, pageSize);
      assert (page - 1) * pageSize == (page - 2) * pageSize + pageSize;
    }
  }

  /** `skip: (page - 1) * pageSize, take: pageSize` on a result list. */
  function Page<T>(s: seq<T>, page: int, pageSize: int): (r: seq<T>)
    requires page >= 1 && pageSize >= 1
    ensures |r| <= pageSize
    ensures forall i :: 0 <= i < |r| ==> Offset(page, pageSize) + i < |s| && r[i] == s[Offset(page, pageSize) + i]
  {
    var skip := Offset(page, pageSize);
    if |s| <= skip then [] else if skip + pageSize <= |s| then s[skip..skip + pageSize] else s[skip..]
  }

  /** Pages 1 to `n` of `s`, concatenated. */
  function Pages<T>(s: seq<T>, pageSize: int, n: nat): seq<T>
    requires pageSize >= 1
  {
    if n == 0 then [] else Pages(s, pageSize, n - 1) + Page(s, n, pageSize)
  }

  /** The rows before page `n`, followed by page `n`, are the rows before page `n + 1`. */
  lemma PageFollowsOffset<T>(s: seq<T>, n: int, pageSize: int)
    requires n >= 1 && pageSize >= 1
    ensures (if Offset(n, pageSize) <= |s| then s[..Offset(n, pageSize)] else s) + Page(s, n, pageSize)
      == (if Offset(n + 1, pageSize) <= |s| then s[..Offset(n + 1, pageSize)] else s)
  {
    var skip := Offset(n, pageSize);
    assert Offset(n + 1, pageSize) == skip + pageSize;
    if skip + pageSize <= |s| {
      assert Page(s, n, pageSize) == s[skip..skip + pageSize];
      assert s[..skip] + s[skip..skip + pageSize] == s[..skip + pageSize];
    } else if skip <= |s| {
      assert Page(s, n, pageSize) == s[skip..];
      assert s[..skip] + s[skip..] == s;
    } else {
      assert Page(s, n, pageSize) == [];
    }
  }

  /** Pages 1 to `n`, one after the other, are the first `n * pageSize` rows: none skipped, none repeated. */
  lemma {:induction false} PagesTile<T>(s: seq<T>, pageSize: int, n: nat)
    requires pageSize >= 1
    ensures Pages(s, pageSize, n) == if Offset(n + 1, pageSize) <= |s| then s[..Offset(n + 1, pageSize)] else s
  {
    if n > 0 {
      PagesTile(s, pageSize, n - 1);
      PageFollowsOffset(s, n, pageSize);
    }
  }

  /** Every row of the inbox is one of the user's notifications. */
  lemma InboxRows(notifications: seq<Notification>, userId: Id)
    ensures forall i :: 0 <= i < |Inbox(notifications, userId)| ==>
      Inbox(notifications, userId)[i] in notifications && Inbox(notifications, userId)[i].userId == Some(userId)
  {
    var inbox := Inbox(notifications, userId);
    var mine := Where(notifications, (n: Notification) => n.userId == Some(userId));
    forall i | 0 <= i < |inbox|
      ensures inbox[i] in notifications && inbox[i].userId == Some(userId)
    {
      assert inbox[i] in multiset(mine);
    }
  }

  /**
   * `getNotifications(userId, page, pageSize)`: page `page` (from 1) of the
   * user's notifications, newest first.
   */
  function GetNotifications(notifications: seq<Notification>, userId: Id, page: int, pageSize: int): (r: seq<Notification>)
    requires page >= 1 && pageSize >= 1
    ensures |r| <= pageSize
    ensures NewestFirst(r)
    ensures forall i :: 0 <= i < |r| ==> r[i] in notifications && r[i].userId == Some(userId)
  {
    var inbox := Inbox(notifications, userId);
    InboxRows(notifications, userId);
    Page(inbox, page, pageSize)
  }

  /** Reading pages 1 to `n` in turn yields the user's `n * pageSize` newest notifications, in order. */
  lemma PagesTileInbox(notifications: seq<Notification>, userId: Id, pageSize: int, n: nat)
    requires pageSize >= 1
    ensures forall p :: 1 <= p <= n ==> GetNotifications(notifications, userId, p, pageSize) == Page(Inbox(notifications, userId), p, pageSize)
    ensures var inbox := Inbox(notifications, userId);
      Pages(inbox, pageSize, n) == if Offset(n + 1, pageSize) <= |inbox| then inbox[..Offset(n + 1, pageSize)] else inbox
  {
    PagesTile(Inbox(notifications, userId), pageSize, n);
  }

  /**
   * `update({ user: { id: userId } [, id] }, { isRead: true })`: the user's
   * notifications (all of them, or those with key `only`) become read.
   */
  function MarkRead(notifications: seq<Notification>, userId: Id, only: Option<Id>): (r: seq<Notification>)
    ensures |r| == |notifications|
    ensures forall k :: 0 <= k < |r| ==> r[k] == notifications[k].(isRead := r[k].isRead)
    ensures forall k :: 0 <= k < |r| ==>
      (r[k].isRead <==> notifications[k].isRead ||
                        (notifications[k].userId == Some(userId) && (only.None? || notifications[k].id == only.value)))
  {
    seq(|notifications|, k requires 0 <= k < |notifications| =>
      if notifications[k].userId == Some(userId) && (only.None? || notifications[k].id == only.value)
      then notifications[k].(isRead := true)
      else notifications[k])
  }

  /** Marking is idempotent, and marking all covers marking one. */
  lemma MarkReadIdempotent(notifications: seq<Notification>, userId: Id, only: Option<Id>)
    ensures MarkRead(MarkRead(notifications, userId, only), userId, only) == MarkRead(notifications, userId, only)
    ensures MarkRead(MarkRead(notifications, userId, only), userId, None) == MarkRead(notifications, userId, None)
  {
  }

  /**
   * The effect of `sendNotificationAndSave(userId, title, body)` at time `now`,
   * the saved row taking key `notificationId`: nothing for an unknown user;
   * otherwise the fan-out, and the row is saved only if the fan-out raised no
   * error (an error is swallowed).
   */
  twostate predicate NotifiedAndSaved(db: Database, userId: Id, title: string, body: string, now: int, notificationId: Id)
    reads db
  {
    if UserById(old(db.users), userId).None? then
      db.loginSessions == old(db.loginSessions) && db.outbox == old(db.outbox) && db.notifications == old(db.notifications)
    else
      var d := Fanout(UserSessions(old(db.loginSessions), userId), title, body, now);
      && db.outbox == old(db.outbox) + d.pushes
      && db.loginSessions ==
           (if d.expired.None? then old(db.loginSessions) else SoftRemoveSession(old(db.loginSessions), d.expired.value.id))
      && db.notifications ==
           old(db.notifications) + (if d.expired.None? then [Notification(notificationId, title, body, false, Some(userId), now)] else [])
  }

  class NotificationService {
    const db: Database

    constructor (db: Database)
      ensures this.db == db
    {
      this.db := db;
    }

    /**
     * `sendNotificationToUser(userId, title, body)`: the fan-out over the user's
     * sessions in table order. An expired session is soft-removed and the send
     * fails with "Refresh token expired".
     */
    method SendNotificationToUser(userId: Id, title: string, body: string, now: int) returns (r: Outcome)
      modifies db`loginSessions, db`outbox
      ensures var d := Fanout(UserSessions(old(db.loginSessions), userId), title, body, now);
        && db.outbox == old(db.outbox) + d.pushes
        && (d.expired.None? ==> r == Pass && db.loginSessions == old(db.loginSessions))
        && (d.expired.Some? ==>
              && r == Fail(Failure(TokenExpired))
              && db.loginSessions == SoftRemoveSession(old(db.loginSessions), d.expired.value.id))
    {
      var sessions := UserSessions(db.loginSessions, userId);
      FanoutFromIsFanout(sessions, 0, title, body, now);
      assert sessions[0..] == sessions;
      r := SendToSessions(sessions, title, body, now);
    }

    /**
     * The loop of `sendNotificationToUser` over the sessions found: each live
     * session with a token gets the message; a tokenless one ends the loop; an
     * expired one is soft-removed and ends it with an error.
     */
    method SendToSessions(sessions: seq<LoginSession>, title: string, body: string, now: int) returns (r: Outcome)
      modifies db`loginSessions, db`outbox
      ensures var d := FanoutFrom(sessions, 0, title, body, now);
        && db.outbox == old(db.outbox) + d.pushes
        && (d.expired.None? ==> r == Pass && db.loginSessions == old(db.loginSessions))
        && (d.expired.Some? ==>
              && r == Fail(Failure(TokenExpired))
              && db.loginSessions == SoftRemoveSession(old(db.loginSessions), d.expired.value.id))
    {
      ghost var sent: seq<Push> := [];
      var i := 0;
      while i < |sessions|
        invariant 0 <= i <= |sessions|
        invariant db.loginSessions == old(db.loginSessions)
        invariant db.outbox == old(db.outbox) + sent
        invariant FanoutFrom(sessions, 0, title, body, now).expired == FanoutFrom(sessions, i, title, body, now).expired
        invariant FanoutFrom(sessions, 0, title, body, now).pushes == sent + FanoutFrom(sessions, i, title, body, now).pushes
      {
        var s := sessions[i];
        if SessionExpired(s, now) {
          db.loginSessions := SoftRemoveSession(db.loginSessions, s.id);
          return Fail(Failure(TokenExpired));
        }
        if !HasToken(s) {
          return Pass;
        }
        var push := Push(s.fcmToken.value, title, body);
        ghost var rest := FanoutFrom(sessions, i + 1, title, body, now);
        assert sent + ([push] + rest.pushes) == (sent + [push]) + rest.pushes;
        db.outbox := db.outbox + [push];
        sent := sent + [push];
        i := i + 1;
      }
      r := Pass;
    }

    /** `sendNotificationAndSave(userId, title, body)`; it never throws. */
    method SendNotificationAndSave(userId: Id, title: string, body: string, now: int, notificationId: Id)
      modifies db`loginSessions, db`outbox, db`notifications
      ensures NotifiedAndSaved(db, userId, title, body, now, notificationId)
    {
      if UserById(db.users, userId).None? {
        return;
      }
      var sent := SendNotificationToUser(userId, title, body, now);
      if sent.Fail? {
        return;
      }
      db.notifications := db.notifications + [Notification(notificationId, title, body, false, Some(userId), now)];
    }

    /**
     * `updateFcmToken(dto)`: the live session with the refresh token and user
     * gets the device token; errors surface as BadRequest with their message.
     */
    method UpdateFcmToken(userId: Id, refreshToken: string, fcmToken: string, now: int) returns (r: Outcome)
      modifies db`loginSessions
      ensures SessionFor(old(db.loginSessions), userId, refreshToken).None? ==>
        r == Fail(BadRequest("Invalid fcm token")) && db.loginSessions == old(db.loginSessions)
      ensures SessionFor(old(db.loginSessions), userId, refreshToken).Some? ==>
        var s := old(db.loginSessions)[SessionFor(old(db.loginSessions), userId, refreshToken).value];
        if SessionExpired(s, now) then
          r == Fail(BadRequest(TokenExpired)) && db.loginSessions == old(db.loginSessions)
        else
          r == Pass && db.loginSessions == StoreFcmToken(old(db.loginSessions), s.id, fcmToken)
    {
      var k := SessionFor(db.loginSessions, userId, refreshToken);
      if k.None? {
        return Fail(BadRequest("Invalid fcm token"));
      }
      var s := db.loginSessions[k.value];
      if SessionExpired(s, now) {
        return Fail(BadRequest(TokenExpired));
      }
      db.loginSessions := StoreFcmToken(db.loginSessions, s.id, fcmToken);
      r := Pass;
    }

    /** `markAsRead(userId, notificationId, isReadAll)`. */
    method MarkAsRead(userId: Id, notificationId: Id, isReadAll: bool)
      modifies db`notifications
      ensures db.notifications == MarkRead(old(db.notifications), userId, if isReadAll then None else Some(notificationId))
      ensures isReadAll ==> forall k :: 0 <= k < |db.notifications| && db.notifications[k].userId == Some(userId) ==>
        db.notifications[k].isRead
    {
      db.notifications := MarkRead(db.notifications, userId, if isReadAll then None else Some(notificationId));
    }
  }
}

=== FILE: refresh_strategy.dfy ===
/**
 * The `jwt-refresh` passport strategy guarding the refresh endpoint. The JWT
 * is read from the `access_token` of the `auth-cookie` cookie and verified
 * with the refresh secret, expiry ignored; `validate` then checks the
 * cookie's refresh token against the user rows through `validRefreshToken`.
 */
module RefreshStrategy {
  import opened Common
  import opened Entities
  import opened Auth

  const CookieName: string := "auth-cookie"

  /** The `auth-cookie` value: the `access_token` and `refresh_token` a client holds. */
  datatype AuthCookie = AuthCookie(accessToken: Option<string>, refreshToken: Option<string>)

  /** A verified token's payload. */
  datatype JwtPayload = JwtPayload(email: string, sub: Id, exp: int)

  /** What `validate` decides before it consults the user rows. */
  datatype Verdict = Reject(error: Error) | Delegate(email: string, refreshToken: string)

  /** The extractor given to `ExtractJwt.fromExtractors`: the cookie's access token, or nothing. */
  function ExtractToken(cookies: map<string, AuthCookie>): (r: Option<string>)
    ensures r.Some? <==> CookieName in cookies && cookies[CookieName].accessToken.Some?
    ensures r.Some? ==> r.value == cookies[CookieName].accessToken.value
  {
    if CookieName in cookies then cookies[CookieName].accessToken else None
  }

  /** The checks `validate` makes on the payload and the cookie, in order. */
  function Precheck(payload: Option<JwtPayload>, cookies: map<string, AuthCookie>): (r: Verdict)
    ensures payload.None? ==> r == Reject(BadRequest("invalid jwt token"))
    ensures r.Delegate? <==>
      && payload.Some?
      && CookieName in cookies
      && cookies[CookieName].refreshToken.Some?
      && cookies[CookieName].refreshToken.value != ""
    ensures r.Delegate? ==>
      r.email == payload.value.email && r.refreshToken == cookies[CookieName].refreshToken.value
    ensures payload.Some? && r.Reject? ==> r.error == BadRequest("invalid refresh token")
  {
    match payload
    case None => Reject(BadRequest("invalid jwt token"))
    case Some(p) =>
      if CookieName !in cookies then Reject(BadRequest("invalid refresh token"))
      else match cookies[CookieName].refreshToken
        case None => Reject(BadRequest("invalid refresh token"))
        case Some(rt) => if rt == "" then Reject(BadRequest("invalid refresh token")) else Delegate(p.email, rt)
  }

  /** How `validate` turns the answer of `validRefreshToken` into its own. */
  function Conclude(answer: Result<Option<SessionUser>>): (r: Result<SessionUser>)
    ensures r.Ok? <==> answer.Ok? && answer.value.Some?
    ensures r.Ok? ==> r.value == answer.value.value
    ensures answer == Ok(None) ==> r == Err(BadRequest("Token expired. Please login"))
    ensures answer.Err? ==> r == Err(answer.error)
  {
    match answer
    case Err(e) => Err(e)
    case Ok(None) => Err(BadRequest("Token expired. Please login"))
    case Ok(Some(u)) => Ok(u)
  }

  /** The payload's `exp` plays no part in the checks: the strategy ignores expiry. */
  lemma PrecheckIgnoresExpiry(p: JwtPayload, exp: int, cookies: map<string, AuthCookie>)
    ensures Precheck(Some(p), cookies) == Precheck(Some(p.(exp := exp)), cookies)
  {
  }

  /**
   * The outcome of `validate` for a verified payload and the effect on the user
   * rows: a precheck rejection or a missing row changes nothing; an expired row
   * has its tokens cleared and is refused; otherwise the row's session user.
   */
  twostate predicate Validated(db: Database, cookies: map<string, AuthCookie>, payload: Option<JwtPayload>, now: int,
                               new r: Result<SessionUser>)
    reads db
  {
    match Precheck(payload, cookies)
    case Reject(e) => r == Err(e) && db.users == old(db.users)
    case Delegate(email, rt) =>
      match SessionOwner(old(db.users), email, rt)
      case None => r == Err(Crash) && db.users == old(db.users)
      case Some(k) =>
        var u := old(db.users)[k];
        if RefreshExpired(u, now) then
          && r == Err(BadRequest("Token expired. Please login"))
          && db.users == ClearTokens(old(db.users), u.id)
        else
          r == Ok(SessionUser(u.id, u.fullName, u.email, u.refreshTokenExp)) && db.users == old(db.users)
  }

  class RtStrategy {
    const auth: AuthService
    /** `jwtService.verify` with REFRESH_TOKEN_SECRET and `ignoreExpiration: true`: it depends on no clock. */
    const verify: string -> Option<JwtPayload>

    constructor (auth: AuthService, verify: string -> Option<JwtPayload>)
      ensures this.auth == auth && this.verify == verify
    {
      this.auth := auth;
      this.verify := verify;
    }

    /** `validate(req, payload)`. */
    method Validate(cookies: map<string, AuthCookie>, payload: Option<JwtPayload>, now: int)
      returns (r: Result<SessionUser>)
      modifies auth.db`users
      ensures Validated(auth.db, cookies, payload, now, r)
    {
      var pre := Precheck(payload, cookies);
      if pre.Reject? {
        return Err(pre.error);
      }
      var answer := auth.ValidRefreshToken(pre.email, pre.refreshToken, now);
      r := Conclude(answer);
    }

    /**
     * The whole guard: a request with no token to extract, or one the refresh
     * secret does not verify, is refused by passport (401) before `validate` runs.
     */
    method Authenticate(cookies: map<string, AuthCookie>, now: int) returns (r: Result<SessionUser>)
      modifies auth.db`users
      ensures ExtractToken(cookies).None? ==> r == Err(Unauthorized("Unauthorized")) && auth.db.users == old(auth.db.users)
      ensures ExtractToken(cookies).Some? && verify(ExtractToken(cookies).value).None? ==>
        r == Err(Unauthorized("Unauthorized")) && auth.db.users == old(auth.db.users)
      ensures ExtractToken(cookies).Some? && verify(ExtractToken(cookies).value).Some? ==>
        Validated(auth.db, cookies, verify(ExtractToken(cookies).value), now, r)
      ensures r.Ok? ==>
        && ExtractToken(cookies).Some?
        && verify(ExtractToken(cookies).value).Some?
        && Precheck(verify(ExtractToken(cookies).value), cookies).Delegate?
        && auth.db.users == old(auth.db.users)
        && r.value.email == verify(ExtractToken(cookies).value).value.email
    {
      var token := ExtractToken(cookies);
      if token.None? {
        return Err(Unauthorized("Unauthorized"));
      }
      var payload := verify(token.value);
      if payload.None? {
        return Err(Unauthorized("Unauthorized"));
      }
      r := Validate(cookies, payload, now);
    }
  }
}

=== FILE: room_service.dfy ===
/**
 * Rooms and their members. A user belongs to a room through a live `UserRoom`
 * link; the link with `isOwner` set marks the room's creator. The read-only
 * checks and validators are functions of the tables; the operations that
 * write links or rooms are methods of `RoomService`.
 */
module Rooms {
  import opened Common
  import opened Entities

  const AlreadyMember: string := "User is already a member of the room"
  const NotOwner: string := "You are not the owner of the room"
  const RemoveRoomNotice: string := "Remove room will remove all members and tasks in the room. Are you sure?"

  /** A link `find({ where: { room: { id: roomId } } })` returns. */
  predicate InRoom(l: UserRoom, roomId: Id)
  {
    !l.deleted && l.roomId == Some(roomId)
  }

  /** The links of a room, in table order. */
  function LinksOfRoom(links: seq<UserRoom>, roomId: Id): (r: seq<UserRoom>)
    ensures forall i :: 0 <= i < |r| ==> r[i] in links && InRoom(r[i], roomId)
    ensures forall k :: 0 <= k < |links| && InRoom(links[k], roomId) ==> links[k] in r
    ensures (forall k :: 0 <= k < |links| ==> !InRoom(links[k], roomId)) ==> r == []
  {
    Where(links, (l: UserRoom) => InRoom(l, roomId))
  }

  /** `isRoomExist(roomId)`. */
  function IsRoomExist(rooms: seq<Room>, roomId: Id): (r: bool)
    ensures r <==> exists k :: 0 <= k < |rooms| && rooms[k].id == roomId && !rooms[k].deleted
  {
    RoomById(rooms, roomId).Some?
  }

  /** `isRoomCreator(userId, roomId)`: the user holds an owner link to the room. */
  function IsRoomCreator(links: seq<UserRoom>, userId: Id, roomId: Id): (r: bool)
    ensures r <==> exists k :: 0 <= k < |links| && InRoom(links[k], roomId) && links[k].userId == Some(userId) && links[k].isOwner
  {
    First(links, (l: UserRoom) => InRoom(l, roomId) && l.userId == Some(userId) && l.isOwner).Some?
  }

  /** `isRoomMemberById(roomId, userId)`: the user exists and holds a link to the room. */
  function IsRoomMemberById(users: seq<User>, links: seq<UserRoom>, roomId: Id, userId: Id): (r: bool)
    ensures r <==>
      && (exists k :: 0 <= k < |users| && users[k].id == userId)
      && (exists j :: 0 <= j < |links| && InRoom(links[j], roomId) && links[j].userId == Some(userId))
  {
    UserById(users, userId).Some? && LinkOf(links, userId, roomId).Some?
  }

  /** `isRoomMember(roomId, email)`: the first user with the email holds a link to the room. */
  function IsRoomMember(users: seq<User>, links: seq<UserRoom>, roomId: Id, email: string): (r: bool)
    ensures (forall k :: 0 <= k < |users| ==> users[k].email != email) ==> !r
    ensures UserByEmail(users, email).Some? ==>
      (r <==> IsRoomMemberById(users, links, roomId, users[UserByEmail(users, email).value].id))
  {
    match UserByEmail(users, email)
    case None => false
    case Some(k) => LinkOf(links, users[k].id, roomId).Some?
  }

  /**
   * `joinRoomValidator(userId, roomId)` as written: the last check throws when
   * the user is NOT a member, so only members pass.
   */
  function JoinRoomValidatorAsWritten(users: seq<User>, rooms: seq<Room>, links: seq<UserRoom>, userId: Id, roomId: Id)
    : (r: Outcome)
    ensures !IsRoomExist(rooms, roomId) ==> r == Fail(BadRequest("Room not found"))
    ensures IsRoomExist(rooms, roomId) && UserById(users, userId).None? ==> r == Fail(BadRequest("User not found"))
    ensures r == Pass <==> IsRoomExist(rooms, roomId) && IsRoomMemberById(users, links, roomId, userId)
    ensures r.Fail? ==> r.error.BadRequest?
  {
    if !IsRoomExist(rooms, roomId) then Fail(BadRequest("Room not found"))
    else if UserById(users, userId).None? then Fail(BadRequest("User not found"))
    else if !IsRoomMemberById(users, links, roomId, userId) then Fail(BadRequest(AlreadyMember))
    else Pass
  }

  /** `joinRoomValidator` as its message intends: a user who is already a member is refused. */
  function JoinRoomValidator(users: seq<User>, rooms: seq<Room>, links: seq<UserRoom>, userId: Id, roomId: Id)
    : (r: Outcome)
    ensures !IsRoomExist(rooms, roomId) ==> r == Fail(BadRequest("Room not found"))
    ensures IsRoomExist(rooms, roomId) && UserById(users, userId).None? ==> r == Fail(BadRequest("User not found"))
    ensures r == Pass <==>
      IsRoomExist(rooms, roomId) && UserById(users, userId).Some? && !IsRoomMemberById(users, links, roomId, userId)
    ensures IsRoomMemberById(users, links, roomId, userId) && IsRoomExist(rooms, roomId) ==>
      r == Fail(BadRequest(AlreadyMember))
  {
    if !IsRoomExist(rooms, roomId) then Fail(BadRequest("Room not found"))
    else if UserById(users, userId).None? then Fail(BadRequest("User not found"))
    else if IsRoomMemberById(users, links, roomId, userId) then Fail(BadRequest(AlreadyMember))
    else Pass
  }

  /**
   * The inverted check refuses every newcomer with "User is already a member
   * of the room", and lets existing members through; the intended validator
   * does the opposite.
   */
  lemma {:induction false} JoinRoomValidatorInverted(users: seq<User>, rooms: seq<Room>, links: seq<UserRoom>, userId: Id, roomId: Id)
    requires IsRoomExist(rooms, roomId) && UserById(users, userId).Some?
    ensures !IsRoomMemberById(users, links, roomId, userId) ==>
      && JoinRoomValidatorAsWritten(users, rooms, links, userId, roomId) == Fail(BadRequest(AlreadyMember))
      && JoinRoomValidator(users, rooms, links, userId, roomId) == Pass
    ensures IsRoomMemberById(users, links, roomId, userId) ==>
      && JoinRoomValidatorAsWritten(users, rooms, links, userId, roomId) == Pass
      && JoinRoomValidator(users, rooms, links, userId, roomId) == Fail(BadRequest(AlreadyMember))
  {
  }

  /** The link `new UserRoom({ user, room })` saves: a key not found leaves its side null. */
  function NewLink(users: seq<User>, rooms: seq<Room>, linkId: Id, userId: Id, roomId: Id, isOwner: bool): (l: UserRoom)
    ensures !l.deleted && l.isOwner == isOwner && l.id == linkId
    ensures l.userId == (if UserById(users, userId).Some? then Some(userId) else None)
    ensures l.roomId == (if RoomById(rooms, roomId).Some? then Some(roomId) else None)
  {
    UserRoom(linkId,
             if UserById(users, userId).Some? then Some(userId) else None,
             if RoomById(rooms, roomId).Some? then Some(roomId) else None,
             isOwner, false)
  }

  /** After the intended validator passes, the saved link makes the user a member, which it was not before. */
  lemma {:induction false} JoinMakesMember(users: seq<User>, rooms: seq<Room>, links: seq<UserRoom>, linkId: Id, userId: Id, roomId: Id)
    requires JoinRoomValidator(users, rooms, links, userId, roomId) == Pass
    ensures !IsRoomMemberById(users, links, roomId, userId)
    ensures IsRoomMemberById(users, links + [NewLink(users, rooms, linkId, userId, roomId, false)], roomId, userId)
  {
    var after := links + [NewLink(users, rooms, linkId, userId, roomId, false)];
    assert InRoom(after[|links|], roomId) && after[|links|].userId == Some(userId);
  }

  /**
   * `removeRoomValidator(ownerId, roomId)`: the room must exist and hold at most
   * one link (its owner's); the confirmation text is returned. `ownerId` is not
   * consulted.
   */
  function RemoveRoomValidator(rooms: seq<Room>, links: seq<UserRoom>, ownerId: Id, roomId: Id): (r: Result<string>)
    ensures !IsRoomExist(rooms, roomId) ==> r == Err(NotFound("Room not found"))
    ensures IsRoomExist(rooms, roomId) && |LinksOfRoom(links, roomId)| > 1 ==>
      r == Err(BadRequest("Room has members. Please remove all members first"))
    ensures r.Ok? <==> IsRoomExist(rooms, roomId) && |LinksOfRoom(links, roomId)| <= 1
    ensures r.Ok? ==> r.value == RemoveRoomNotice
  {
    if !IsRoomExist(rooms, roomId) then Err(NotFound("Room not found"))
    else if |LinksOfRoom(links, roomId)| > 1 then Err(BadRequest("Room has members. Please remove all members first"))
    else Ok(RemoveRoomNotice)
  }

  /** `softRemove(Room, { id: roomId })`: every row with the key gets its delete date. */
  function SoftRemoveRoom(rooms: seq<Room>, roomId: Id): (r: seq<Room>)
    ensures |r| == |rooms|
    ensures !IsRoomExist(r, roomId)
    ensures forall k :: 0 <= k < |rooms| && rooms[k].id != roomId ==> r[k] == rooms[k]
    ensures forall k :: 0 <= k < |rooms| ==> r[k] == rooms[k].(deleted := r[k].deleted)
  {
    seq(|rooms|, k requires 0 <= k < |rooms| => if rooms[k].id == roomId then rooms[k].(deleted := true) else rooms[k])
  }

  /** `addMemberValidator(ownerId, email, roomId)`: user, room, ownership, then not yet a member. */
  function AddMemberValidator(users: seq<User>, rooms: seq<Room>, links: seq<UserRoom>, ownerId: Id, email: string, roomId: Id)
    : (r: Outcome)
    ensures UserByEmail(users, email).None? ==> r == Fail(NotFound("User not found"))
    ensures UserByEmail(users, email).Some? && !IsRoomExist(rooms, roomId) ==> r == Fail(NotFound("Room not found"))
    ensures UserByEmail(users, email).Some? && IsRoomExist(rooms, roomId) && !IsRoomCreator(links, ownerId, roomId) ==>
      r == Fail(Unauthorized(NotOwner))
    ensures r == Pass <==>
      && UserByEmail(users, email).Some?
      && IsRoomExist(rooms, roomId)
      && IsRoomCreator(links, ownerId, roomId)
      && !IsRoomMember(users, links, roomId, email)
    ensures r.Fail? && IsRoomCreator(links, ownerId, roomId) && IsRoomExist(rooms, roomId) && UserByEmail(users, email).Some? ==>
      r == Fail(BadRequest(AlreadyMember))
  {
    if UserByEmail(users, email).None? then Fail(NotFound("User not found"))
    else if !IsRoomExist(rooms, roomId) then Fail(NotFound("Room not found"))
    else if !IsRoomCreator(links, ownerId, roomId) then Fail(Unauthorized(NotOwner))
    else if IsRoomMember(users, links, roomId, email) then Fail(BadRequest(AlreadyMember))
    else Pass
  }

  /** The link `addMember` saves for the first user with the email. */
  function MemberLink(users: seq<User>, linkId: Id, email: string, roomId: Id): (l: UserRoom)
    requires UserByEmail(users, email).Some?
    ensures InRoom(l, roomId) && !l.isOwner && l.id == linkId
    ensures l.userId == Some(users[UserByEmail(users, email).value].id)
  {
    UserRoom(linkId, Some(users[UserByEmail(users, email).value].id), Some(roomId), false, false)
  }

  /** After the validator passes, the saved link makes the user with the email a member. */
  lemma {:induction false} AddMemberMakesMember(users: seq<User>, rooms: seq<Room>, links: seq<UserRoom>, ownerId: Id,
                                                linkId: Id, email: string, roomId: Id)
    requires AddMemberValidator(users, rooms, links, ownerId, email, roomId) == Pass
    ensures !IsRoomMember(users, links, roomId, email)
    ensures IsRoomMember(users, links + [MemberLink(users, linkId, email, roomId)], roomId, email)
    ensures IsRoomCreator(links + [MemberLink(users, linkId, email, roomId)], ownerId, roomId)
  {
    var k := UserByEmail(users, email).value;
    var after := links + [MemberLink(users, linkId, email, roomId)];
    assert after[|links|].userId == Some(users[k].id) && InRoom(after[|links|], roomId);
    assert IsRoomMemberById(users, after, roomId, users[k].id);
    var j :| 0 <= j < |links| && InRoom(links[j], roomId) && links[j].userId == Some(ownerId) && links[j].isOwner;
    assert after[j] == links[j];
  }

  /**
   * `removeMemberValidator(ownerId, userId, roomId, removeAll)`. `Ok(Some(false))`
   * is its `return false` (the user holds no non-owner link); `Ok(None)` is
   * falling off the end. The caller ignores the returned value.
   */
  function RemoveMemberValidator(users: seq<User>, rooms: seq<Room>, links: seq<UserRoom>, ownerId: Id, userId: Id,
                                 roomId: Id, removeAll: bool): (r: Result<Option<bool>>)
    ensures !IsRoomExist(rooms, roomId) ==> r == Err(NotFound("Room not found"))
    ensures IsRoomExist(rooms, roomId) && !IsRoomCreator(links, ownerId, roomId) ==> r == Err(Unauthorized(NotOwner))
    ensures r.Ok? ==> IsRoomExist(rooms, roomId) && IsRoomCreator(links, ownerId, roomId)
    ensures r.Ok? && removeAll ==> r.value.None? && |LinksOfRoom(links, roomId)| > 1
    ensures r.Ok? && !removeAll ==> UserById(users, userId).Some?
    ensures r == Ok(Some(false)) <==>
      && IsRoomExist(rooms, roomId) && IsRoomCreator(links, ownerId, roomId) && !removeAll
      && UserById(users, userId).Some?
      && forall k :: 0 <= k < |links| && InRoom(links[k], roomId) && links[k].userId == Some(userId) ==> links[k].isOwner
    ensures r.Ok? ==> r.value != Some(true)
    ensures (&& IsRoomExist(rooms, roomId) && IsRoomCreator(links, ownerId, roomId) && !removeAll
             && UserById(users, userId).None?) ==> r == Err(NotFound("User not found"))
    ensures (&& IsRoomExist(rooms, roomId) && IsRoomCreator(links, ownerId, roomId) && removeAll
             && |LinksOfRoom(links, roomId)| <= 1) ==> r == Err(BadRequest("Room has no members"))
    ensures r == Ok(None) <==>
      && IsRoomExist(rooms, roomId) && IsRoomCreator(links, ownerId, roomId)
      && (removeAll ==> |LinksOfRoom(links, roomId)| > 1)
      && (!removeAll ==> UserById(users, userId).Some? && exists k ::
            0 <= k < |links| && InRoom(links[k], roomId) && links[k].userId == Some(userId) && !links[k].isOwner)
  {
    if !IsRoomExist(rooms, roomId) then Err(NotFound("Room not found"))
    else if !IsRoomCreator(links, ownerId, roomId) then Err(Unauthorized(NotOwner))
    else if !removeAll then
      if UserById(users, userId).None? then Err(NotFound("User not found"))
      else if First(links, (l: UserRoom) => InRoom(l, roomId) && l.userId == Some(userId) && !l.isOwner).None? then Ok(Some(false))
      else Ok(None)
    else if |LinksOfRoom(links, roomId)| <= 1 then Err(BadRequest("Room has no members"))
    else Ok(None)
  }

  /** The keys of the room's links. */
  function LinkIds(links: seq<UserRoom>, roomId: Id): set<Id>
  {
    set k | 0 <= k < |links| && InRoom(links[k], roomId) :: links[k].id
  }

  /** `softRemove` of loaded links: every row whose key is among `ids` gets its delete date. */
  function SoftRemoveLinks(links: seq<UserRoom>, ids: set<Id>): (r: seq<UserRoom>)
    ensures |r| == |links|
    ensures forall k :: 0 <= k < |links| && links[k].id in ids ==> r[k] == links[k].(deleted := true)
    ensures forall k :: 0 <= k < |links| && links[k].id !in ids ==> r[k] == links[k]
  {
    seq(|links|, k requires 0 <= k < |links| => if links[k].id in ids then links[k].(deleted := true) else links[k])
  }

  /** Removing all links of a room leaves it with none: not even its owner keeps a link. */
  lemma {:induction false} RemoveAllEmptiesRoom(links: seq<UserRoom>, roomId: Id, ownerId: Id)
    ensures LinksOfRoom(SoftRemoveLinks(links, LinkIds(links, roomId)), roomId) == []
    ensures !IsRoomCreator(SoftRemoveLinks(links, LinkIds(links, roomId)), ownerId, roomId)
  {
    var after := SoftRemoveLinks(links, LinkIds(links, roomId));
    forall k | 0 <= k < |after|
      ensures !InRoom(after[k], roomId)
    {
      if InRoom(links[k], roomId) {
        assert links[k].id in LinkIds(links, roomId);
      }
    }
  }

  /** No two links share a primary key. */
  predicate UniqueLinkKeys(links: seq<UserRoom>)
  {
    forall i, j :: 0 <= i < j < |links| ==> links[i].id != links[j].id
  }

  /** With unique keys, removing all links of a room leaves every link of another room as it was. */
  lemma {:induction false} RemoveAllSparesOtherRooms(links: seq<UserRoom>, roomId: Id)
    requires UniqueLinkKeys(links)
    ensures forall k :: 0 <= k < |links| && !InRoom(links[k], roomId) ==>
      SoftRemoveLinks(links, LinkIds(links, roomId))[k] == links[k]
  {
    forall k | 0 <= k < |links| && !InRoom(links[k], roomId)
      ensures links[k].id !in LinkIds(links, roomId)
    {
    }
  }

  /** With unique keys, removing one link changes that row and no other. */
  lemma {:induction false} RemoveOneChangesOneRow(links: seq<UserRoom>, j: nat)
    requires UniqueLinkKeys(links) && j < |links|
    ensures SoftRemoveLinks(links, {links[j].id})[j] == links[j].(deleted := true)
    ensures forall k :: 0 <= k < |links| && k != j ==> SoftRemoveLinks(links, {links[j].id})[k] == links[k]
  {
    forall k | 0 <= k < |links| && k != j
      ensures links[k].id != links[j].id
    {
      assert j < k || k < j;
    }
  }

  /** Soft removal never brings a link back: a room only loses links. */
  lemma {:induction false} SoftRemoveShrinksRoom(links: seq<UserRoom>, ids: set<Id>, roomId: Id)
    ensures |LinksOfRoom(SoftRemoveLinks(links, ids), roomId)| <= |LinksOfRoom(links, roomId)|
    ensures (exists k :: 0 <= k < |links| && InRoom(links[k], roomId) && links[k].id in ids) ==>
      |LinksOfRoom(SoftRemoveLinks(links, ids), roomId)| < |LinksOfRoom(links, roomId)|
  {
    var after := SoftRemoveLinks(links, ids);
    forall k | 0 <= k < |links|
      ensures InRoom(after[k], roomId) ==> InRoom(links[k], roomId)
    {
    }
    WhereShrinks(links, after, (l: UserRoom) => InRoom(l, roomId));
  }

  /** A filter keeps no more rows of `b` than of `a` when `b`'s rows pass only where `a`'s do. */
  lemma {:induction false} WhereShrinks<T>(a: seq<T>, b: seq<T>, p: T -> bool)
    requires |a| == |b|
    requires forall k :: 0 <= k < |a| && p(b[k]) ==> p(a[k])
    ensures |Where(b, p)| <= |Where(a, p)|
    ensures (exists k :: 0 <= k < |a| && p(a[k]) && !p(b[k])) ==> |Where(b, p)| < |Where(a, p)|
    decreases |a|
  {
    if |a| > 0 {
      WhereShrinks(a[1..], b[1..], p);
      if exists k :: 0 <= k < |a| && p(a[k]) && !p(b[k]) {
        var k :| 0 <= k < |a| && p(a[k]) && !p(b[k]);
        if k > 0 {
          assert p(a[1..][k - 1]) && !p(b[1..][k - 1]);
        }
      }
    }
  }

  /**
   * The validator does not stop an owner from removing their own link: with
   * only an owner link in the room it answers `false`, which the caller
   * ignores, and `removeMember` then finds and removes that link.
   */
  lemma {:induction false} OwnerLinkPassesRemoveMember(users: seq<User>, rooms: seq<Room>, links: seq<UserRoom>,
                                                       ownerId: Id, roomId: Id)
    requires IsRoomExist(rooms, roomId) && UserById(users, ownerId).Some?
    requires IsRoomCreator(links, ownerId, roomId)
    requires forall k :: 0 <= k < |links| && InRoom(links[k], roomId) && links[k].userId == Some(ownerId) ==> links[k].isOwner
    ensures RemoveMemberValidator(users, rooms, links, ownerId, ownerId, roomId, false) == Ok(Some(false))
    ensures LinkOf(links, ownerId, roomId).Some?
    ensures links[LinkOf(links, ownerId, roomId).value].isOwner
  {
    var j :| 0 <= j < |links| && InRoom(links[j], roomId) && links[j].userId == Some(ownerId) && links[j].isOwner;
    assert !links[j].deleted && links[j].roomId == Some(roomId);
  }

  /** A member as `getUserOfRoom` lists it. */
  datatype Member = Member(linkId: Id, isOwner: bool, userId: Id, email: string, fullName: string)

  /**
   * Code-point lexicographic order on names; `localeCompare` is replaced by it
   * (collation rules are not modelled).
   */
  predicate NameLe(a: string, b: string)
    decreases |a|
  {
    |a| == 0 || (|b| > 0 && (a[0] < b[0] || (a[0] == b[0] && NameLe(a[1..], b[1..]))))
  }

  lemma {:induction false} NameLeTotal(a: string, b: string)
    ensures NameLe(a, b) || NameLe(b, a)
    decreases |a|
  {
    if |a| > 0 && |b| > 0 && a[0] == b[0] {
      NameLeTotal(a[1..], b[1..]);
    }
  }

  lemma {:induction false} NameLeTransitive(a: string, b: string, c: string)
    requires NameLe(a, b) && NameLe(b, c)
    ensures NameLe(a, c)
    decreases |a|
  {
    if |a| > 0 && a[0] == b[0] && b[0] == c[0] {
      NameLeTransitive(a[1..], b[1..], c[1..]);
    }
  }

  /** The comparator of `getUserOfRoom`: owners first, then by full name. */
  predicate Precedes(a: Member, b: Member)
  {
    (a.isOwner && !b.isOwner) || (a.isOwner == b.isOwner && NameLe(a.fullName, b.fullName))
  }

  lemma PrecedesTotal(a: Member, b: Member)
    ensures Precedes(a, b) || Precedes(b, a)
  {
    NameLeTotal(a.fullName, b.fullName);
  }

  lemma PrecedesTransitive(a: Member, b: Member, c: Member)
    requires Precedes(a, b) && Precedes(b, c)
    ensures Precedes(a, c)
  {
    if a.isOwner == c.isOwner {
      NameLeTransitive(a.fullName, b.fullName, c.fullName);
    }
  }

  predicate Sorted(s: seq<Member>)
  {
    forall i, j :: 0 <= i < j < |s| ==> Precedes(s[i], s[j])
  }

  /** Inserts `m` before the first member it precedes; earlier input stays ahead of equal later input. */
  function Insert(m: Member, s: seq<Member>): (r: seq<Member>)
    ensures multiset(r) == multiset(s) + multiset{m}
    ensures |r| == |s| + 1
  {
    if |s| == 0 then [m]
    else if Precedes(m, s[0]) then [m] + s
    else
      assert s == [s[0]] + s[1..];
      [s[0]] + Insert(m, s[1..])
  }

  lemma {:induction false} InsertSorted(m: Member, s: seq<Member>)
    requires Sorted(s)
    ensures Sorted(Insert(m, s))
    decreases |s|
  {
    if |s| == 0 {
    } else if Precedes(m, s[0]) {
      var r := [m] + s;
      forall j | 1 <= j < |r|
        ensures Precedes(m, r[j])
      {
        if j > 1 {
          PrecedesTransitive(m, s[0], s[j - 1]);
        }
      }
    } else {
      PrecedesTotal(m, s[0]);
      InsertSorted(m, s[1..]);
      var t := Insert(m, s[1..]);
      forall j | 0 <= j < |t|
        ensures Precedes(s[0], t[j])
      {
        assert t[j] in multiset(t);
        if t[j] != m {
          assert t[j] in multiset(s[1..]);
          var i :| 0 <= i < |s[1..]| && s[1..][i] == t[j];
          assert s[i + 1] == t[j];
        }
      }
    }
  }

  /** The sort of `getUserOfRoom`, as a stable insertion sort under `Precedes`. */
  function SortMembers(s: seq<Member>): (r: seq<Member>)
    ensures multiset(r) == multiset(s)
    ensures |r| == |s|
  {
    if |s| == 0 then []
    else
      assert s == [s[0]] + s[1..];
      Insert(s[0], SortMembers(s[1..]))
  }

  lemma {:induction false} SortMembersSorted(s: seq<Member>)
    ensures Sorted(SortMembers(s))
    decreases |s|
  {
    if |s| > 0 {
      SortMembersSorted(s[1..]);
      InsertSorted(s[0], SortMembers(s[1..]));
    }
  }

  /** The member a link yields once its user relation is loaded; none when the user is null. */
  function MemberOf(l: UserRoom, users: seq<User>): (r: Option<Member>)
    ensures r.Some? ==> r.value.linkId == l.id && r.value.isOwner == l.isOwner && l.userId == Some(r.value.userId)
    ensures r.Some? ==> (exists k :: 0 <= k < |users| && users[k].id == r.value.userId &&
                                   users[k].email == r.value.email && users[k].fullName == r.value.fullName)
    ensures r.None? <==> l.userId.None? || UserById(users, l.userId.value).None?
  {
    match l.userId
    case None => None
    case Some(uid) =>
      match UserById(users, uid)
      case None => None
      case Some(k) => Some(Member(l.id, l.isOwner, users[k].id, users[k].email, users[k].fullName))
  }

  /** Members of the links in order; a link with a null user makes the sort or the mapping throw. */
  function JoinUsers(links: seq<UserRoom>, users: seq<User>): (r: Result<seq<Member>>)
    ensures r.Ok? ==> |r.value| == |links|
    ensures r.Ok? ==> forall i :: 0 <= i < |links| ==> MemberOf(links[i], users) == Some(r.value[i])
    ensures r.Ok? <==> forall i :: 0 <= i < |links| ==> MemberOf(links[i], users).Some?
    ensures r.Err? ==> r.error == Crash
  {
    if |links| == 0 then Ok([])
    else
      match MemberOf(links[0], users)
      case None => Err(Crash)
      case Some(m) =>
        match JoinUsers(links[1..], users)
        case Err(e) =>
          assert forall i :: 1 <= i < |links| ==> links[i] == links[1..][i - 1];
          Err(e)
        case Ok(rest) =>
          assert forall i :: 1 <= i < |links| ==> links[i] == links[1..][i - 1];
          Ok([m] + rest)
  }

  /** The links `getUserOfRoom` keeps: the room's links, without the owner's unless asked for. */
  function Listed(links: seq<UserRoom>, roomId: Id, includeOwner: bool): (r: seq<UserRoom>)
    ensures forall i :: 0 <= i < |r| ==> r[i] in links && InRoom(r[i], roomId) && (includeOwner || !r[i].isOwner)
    ensures forall k :: 0 <= k < |links| && InRoom(links[k], roomId) && (includeOwner || !links[k].isOwner) ==> links[k] in r
  {
    var found := LinksOfRoom(links, roomId);
    if includeOwner then found
    else
      var kept := Where(found, (l: UserRoom) => !l.isOwner);
      assert forall k :: 0 <= k < |links| && InRoom(links[k], roomId) && !links[k].isOwner ==> links[k] in kept by {
        forall k | 0 <= k < |links| && InRoom(links[k], roomId) && !links[k].isOwner
          ensures links[k] in kept
        {
          var i :| 0 <= i < |found| && found[i] == links[k];
        }
      }
      kept
  }

  /**
   * `getUserOfRoom(roomId, includeOwner)`: the room's members, owners first and
   * then by name, each listed once per link; without the owner unless asked.
   */
  function GetUserOfRoom(users: seq<User>, links: seq<UserRoom>, roomId: Id, includeOwner: bool): (r: Result<seq<Member>>)
    ensures r.Ok? ==> Sorted(r.value)
    ensures r.Ok? && !includeOwner ==> forall i :: 0 <= i < |r.value| ==> !r.value[i].isOwner
    ensures r.Ok? ==> forall i :: 0 <= i < |r.value| ==> FromRoomLink(users, links, roomId, r.value[i])
    ensures r.Ok? ==> forall k :: 0 <= k < |links| && InRoom(links[k], roomId) && (includeOwner || !links[k].isOwner) ==>
      MemberOf(links[k], users).Some? && MemberOf(links[k], users).value in r.value
    ensures r.Err? ==> r.error == Crash
    ensures r.Ok? <==> JoinUsers(Listed(links, roomId, includeOwner), users).Ok?
    ensures r.Ok? ==>
      && JoinUsers(Listed(links, roomId, includeOwner), users).Ok?
      && multiset(r.value) == multiset(JoinUsers(Listed(links, roomId, includeOwner), users).value)
  {
    var kept := Listed(links, roomId, includeOwner);
    match JoinUsers(kept, users)
    case Err(e) => Err(e)
    case Ok(ms) =>
      SortMembersSorted(ms);
      JoinedMembersFromRoom(users, links, roomId, includeOwner, ms);
      ListedMembersSound(users, links, roomId, includeOwner, ms, SortMembers(ms));
      ListedMembersComplete(users, links, roomId, includeOwner, kept, ms, SortMembers(ms));
      Ok(SortMembers(ms))
  }

  /** `m` is the member that some link of the room joins to. */
  ghost predicate FromRoomLink(users: seq<User>, links: seq<UserRoom>, roomId: Id, m: Member)
  {
    exists k :: 0 <= k < |links| && InRoom(links[k], roomId) && MemberOf(links[k], users) == Some(m)
  }

  /** Every member joined to the kept links comes from a link of the room, an owner link only when asked. */
  lemma JoinedMembersFromRoom(users: seq<User>, links: seq<UserRoom>, roomId: Id, includeOwner: bool, ms: seq<Member>)
    requires JoinUsers(Listed(links, roomId, includeOwner), users) == Ok(ms)
    ensures forall j :: 0 <= j < |ms| ==> FromRoomLink(users, links, roomId, ms[j]) && (includeOwner || !ms[j].isOwner)
  {
    var kept := Listed(links, roomId, includeOwner);
    forall j | 0 <= j < |ms|
      ensures FromRoomLink(users, links, roomId, ms[j]) && (includeOwner || !ms[j].isOwner)
    {
      assert MemberOf(kept[j], users) == Some(ms[j]);
      assert kept[j] in links && InRoom(kept[j], roomId);
      var k :| 0 <= k < |links| && links[k] == kept[j];
    }
  }

  /** Reordering the members keeps each of them from a link of the room, and keeps owners out unless asked. */
  lemma ListedMembersSound(users: seq<User>, links: seq<UserRoom>, roomId: Id, includeOwner: bool,
                           ms: seq<Member>, sorted: seq<Member>)
    requires forall j :: 0 <= j < |ms| ==> FromRoomLink(users, links, roomId, ms[j]) && (includeOwner || !ms[j].isOwner)
    requires multiset(sorted) == multiset(ms)
    ensures forall i :: 0 <= i < |sorted| ==> FromRoomLink(users, links, roomId, sorted[i]) && (includeOwner || !sorted[i].isOwner)
  {
    forall i | 0 <= i < |sorted|
      ensures FromRoomLink(users, links, roomId, sorted[i]) && (includeOwner || !sorted[i].isOwner)
    {
      var m := sorted[i];
      assert m in multiset(sorted);
      assert m in ms;
      var j :| 0 <= j < |ms| && ms[j] == m;
    }
  }

  /** Every listed link of the room has its member among the kept links' members, in any order. */
  lemma ListedMembersComplete(users: seq<User>, links: seq<UserRoom>, roomId: Id, includeOwner: bool,
                              kept: seq<UserRoom>, ms: seq<Member>, sorted: seq<Member>)
    requires kept == Listed(links, roomId, includeOwner)
    requires JoinUsers(kept, users) == Ok(ms)
    requires multiset(sorted) == multiset(ms)
    ensures forall k :: 0 <= k < |links| && InRoom(links[k], roomId) && (includeOwner || !links[k].isOwner) ==>
      MemberOf(links[k], users).Some? && MemberOf(links[k], users).value in sorted
  {
    forall k | 0 <= k < |links| && InRoom(links[k], roomId) && (includeOwner || !links[k].isOwner)
      ensures MemberOf(links[k], users).Some? && MemberOf(links[k], users).value in sorted
    {
      var j :| 0 <= j < |kept| && kept[j] == links[k];
      assert ms[j] in multiset(sorted);
    }
  }

  class RoomService {
    const db: Database

    constructor (db: Database)
      ensures this.db == db
    {
      this.db := db;
    }

    /** `joinRoom(userId, roomId)`: saves a non-owner link to whatever the two lookups found. */
    method JoinRoom(userId: Id, roomId: Id, linkId: Id)
      modifies db`userRooms
      ensures db.userRooms == old(db.userRooms) + [NewLink(db.users, db.rooms, linkId, userId, roomId, false)]
      ensures JoinRoomValidator(db.users, db.rooms, old(db.userRooms), userId, roomId) == Pass ==>
        IsRoomMemberById(db.users, db.userRooms, roomId, userId)
    {
      var link := NewLink(db.users, db.rooms, linkId, userId, roomId, false);
      if JoinRoomValidator(db.users, db.rooms, db.userRooms, userId, roomId) == Pass {
        JoinMakesMember(db.users, db.rooms, db.userRooms, linkId, userId, roomId);
      }
      db.userRooms := db.userRooms + [link];
    }

    /**
     * `createRoom(creatorId, room)`: the room and its creator's owner link, in one
     * transaction. A creator not found leaves the link's user null.
     */
    method CreateRoom(creatorId: Id, name: string, description: string, roomId: Id, linkId: Id)
      modifies db`rooms, db`userRooms
      ensures db.rooms == old(db.rooms) + [Room(roomId, name, description, false)]
      ensures db.userRooms == old(db.userRooms) +
        [UserRoom(linkId, if UserById(db.users, creatorId).Some? then Some(creatorId) else None, Some(roomId), true, false)]
      ensures IsRoomExist(db.rooms, roomId)
      ensures UserById(db.users, creatorId).Some? ==> IsRoomCreator(db.userRooms, creatorId, roomId)
    {
      db.rooms := db.rooms + [Room(roomId, name, description, false)];
      var owner := if UserById(db.users, creatorId).Some? then Some(creatorId) else None;
      db.userRooms := db.userRooms + [UserRoom(linkId, owner, Some(roomId), true, false)];
      assert db.rooms[|db.rooms| - 1].id == roomId;
      assert InRoom(db.userRooms[|db.userRooms| - 1], roomId);
    }

    /** `removeRoom(roomId)`: soft-removes the room only; its links and tasks stay. */
    method RemoveRoom(roomId: Id)
      modifies db`rooms
      ensures db.rooms == SoftRemoveRoom(old(db.rooms), roomId)
      ensures !IsRoomExist(db.rooms, roomId)
    {
      db.rooms := SoftRemoveRoom(db.rooms, roomId);
    }

    /** `addMember(email, roomId)`: saves a non-owner link for the first user with the email. */
    method AddMember(email: string, roomId: Id, linkId: Id) returns (r: Outcome)
      modifies db`userRooms
      ensures UserByEmail(db.users, email).None? ==> r == Fail(NotFound("User not found")) && db.userRooms == old(db.userRooms)
      ensures UserByEmail(db.users, email).Some? && !IsRoomExist(db.rooms, roomId) ==>
        r == Fail(NotFound("Room not found")) && db.userRooms == old(db.userRooms)
      ensures UserByEmail(db.users, email).Some? && IsRoomExist(db.rooms, roomId) ==>
        r == Pass && db.userRooms == old(db.userRooms) + [MemberLink(db.users, linkId, email, roomId)]
      ensures r == Pass ==> IsRoomMember(db.users, db.userRooms, roomId, email)
    {
      var k := UserByEmail(db.users, email);
      var found := IsRoomExist(db.rooms, roomId);
      if k.None? {
        return Fail(NotFound("User not found"));
      }
      if !found {
        return Fail(NotFound("Room not found"));
      }
      var link := MemberLink(db.users, linkId, email, roomId);
      db.userRooms := db.userRooms + [link];
      assert IsRoomMemberById(db.users, db.userRooms, roomId, db.users[k.value].id) by {
        assert db.userRooms[|db.userRooms| - 1] == link;
      }
      r := Pass;
    }

    /**
     * `removeMember(userId, roomId, removeAll)`: all links of the room, or the
     * first link of the user in the room, owner link or not, are soft-removed.
     */
    method RemoveMember(userId: Id, roomId: Id, removeAll: bool) returns (r: bool)
      modifies db`userRooms
      ensures removeAll ==> r && db.userRooms == SoftRemoveLinks(old(db.userRooms), LinkIds(old(db.userRooms), roomId))
      ensures removeAll ==> LinksOfRoom(db.userRooms, roomId) == []
      ensures !removeAll && LinkOf(old(db.userRooms), userId, roomId).None? ==> !r && db.userRooms == old(db.userRooms)
      ensures !removeAll && LinkOf(old(db.userRooms), userId, roomId).Some? ==>
        && r
        && db.userRooms == SoftRemoveLinks(old(db.userRooms), {old(db.userRooms)[LinkOf(old(db.userRooms), userId, roomId).value].id})
        && |LinksOfRoom(db.userRooms, roomId)| < |LinksOfRoom(old(db.userRooms), roomId)|
    {
      if removeAll {
        RemoveAllEmptiesRoom(db.userRooms, roomId, userId);
        db.userRooms := SoftRemoveLinks(db.userRooms, LinkIds(db.userRooms, roomId));
        return true;
      }
      var k := LinkOf(db.userRooms, userId, roomId);
      if k.None? {
        return false;
      }
      SoftRemoveShrinksRoom(db.userRooms, {db.userRooms[k.value].id}, roomId);
      db.userRooms := SoftRemoveLinks(db.userRooms, {db.userRooms[k.value].id});
      r := true;
    }
  }
}

=== FILE: task_service.dfy ===
/**
 * Tasks of a room: the validators that guard creation, update, assignment
 * and status changes, the operations that write the task table, and the
 * notifications some of them send through the notification service.
 */
module Tasks {
  import opened Common
  import opened Entities
  import opened Notifications
  import Rooms

  const DueDateInvalid: string := "Due date is invalid"
  const NotInRoom: string := "User is not in the room"
  const AssignedTitle: string := "Assigned to task"
  const CompletedTitle: string := "Task completed"

  /**
   * A relation property of an entity loaded without that relation: it stays
   * undefined (`Unloaded`); a loaded relation holds the related row.
   */
  datatype Loaded<T> = Unloaded | Row(value: T)

  /** The room a task's loaded `room` relation holds: the row with the task's room key, if any. */
  function RoomOf(rooms: seq<Room>, t: Task): (r: Option<Room>)
    ensures r.Some? ==> t.roomId == Some(r.value.id) && r.value in rooms
    ensures r.None? <==> t.roomId.None? || forall k :: 0 <= k < |rooms| ==> rooms[k].id != t.roomId.value
  {
    match t.roomId
    case None => None
    case Some(rid) =>
      match First(rooms, (m: Room) => m.id == rid)
      case None => None
      case Some(k) => Some(rooms[k])
  }

  /** The user a task's loaded `user` relation holds, if any. */
  function AssigneeOf(users: seq<User>, t: Task): (r: Option<User>)
    ensures r.Some? ==> t.userId == Some(r.value.id) && r.value in users
    ensures r.None? <==> t.userId.None? || UserById(users, t.userId.value).None?
  {
    match t.userId
    case None => None
    case Some(uid) =>
      match UserById(users, uid)
      case None => None
      case Some(k) => Some(users[k])
  }

  /**
   * `createTaskValidator(task)`: the due date first, then the room, then, when
   * an assignee is given, that the assignee exists and is linked to the room.
   */
  function CreateTaskValidator(users: seq<User>, rooms: seq<Room>, links: seq<UserRoom>,
                               dueDate: int, roomId: Id, userId: Option<Id>, now: int): (r: Outcome)
    ensures dueDate < now ==> r == Fail(BadRequest(DueDateInvalid))
    ensures dueDate >= now && !Rooms.IsRoomExist(rooms, roomId) ==> r == Fail(NotFound("Room not found"))
    ensures dueDate >= now && Rooms.IsRoomExist(rooms, roomId) && userId.Some? && UserById(users, userId.value).None? ==>
      r == Fail(NotFound("User not found"))
    ensures r == Pass <==>
      && dueDate >= now
      && Rooms.IsRoomExist(rooms, roomId)
      && (userId.Some? ==> Rooms.IsRoomMemberById(users, links, roomId, userId.value))
    ensures (r.Fail? && dueDate >= now && Rooms.IsRoomExist(rooms, roomId) && userId.Some? &&
             UserById(users, userId.value).Some?) ==> r == Fail(BadRequest(NotInRoom))
  {
    if dueDate < now then Fail(BadRequest(DueDateInvalid))
    else if RoomById(rooms, roomId).None? then Fail(NotFound("Room not found"))
    else match userId
      case None => Pass
      case Some(uid) =>
        if UserById(users, uid).None? then Fail(NotFound("User not found"))
        else if LinkOf(links, uid, roomId).None? then Fail(BadRequest(NotInRoom))
        else Pass
  }

  /** The row `createTask` saves: status TODO; assignee and room only when they were found. */
  function NewTask(users: seq<User>, rooms: seq<Room>, taskId: Id, title: string, description: string,
                   dueDate: int, roomId: Id, userId: Option<Id>): (t: Task)
    ensures t.id == taskId && t.title == title && t.description == description && t.dueDate == dueDate
    ensures t.status == Listed(TODO) && !t.isComplete && t.review == "" && !t.deleted
    ensures t.userId.Some? <==> userId.Some? && UserById(users, userId.value).Some?
    ensures t.userId.Some? ==> t.userId == userId
    ensures t.roomId.Some? <==> Rooms.IsRoomExist(rooms, roomId)
    ensures t.roomId.Some? ==> t.roomId == Some(roomId)
  {
    Task(taskId, title, description, dueDate, Listed(TODO), false, "",
         if userId.Some? && UserById(users, userId.value).Some? then userId else None,
         if RoomById(rooms, roomId).Some? then Some(roomId) else None,
         false)
  }

  /** A task created after the validator passed lies in its room, with its assignee a member of that room. */
  lemma ValidatedTaskPlaced(users: seq<User>, rooms: seq<Room>, links: seq<UserRoom>, taskId: Id, title: string,
                            description: string, dueDate: int, roomId: Id, userId: Option<Id>, now: int)
    requires CreateTaskValidator(users, rooms, links, dueDate, roomId, userId, now) == Pass
    ensures var t := NewTask(users, rooms, taskId, title, description, dueDate, roomId, userId);
      && t.roomId == Some(roomId)
      && t.userId == userId
      && t.dueDate >= now
      && (userId.Some? ==> Rooms.IsRoomMemberById(users, links, roomId, userId.value))
  {
  }

  /**
   * `updateTaskValidator(taskId, task)`: due date, the live task, the
   * assignee (always given), then the assignee's link to the task's room.
   * A task whose room relation is null makes `existTask.room.id` throw.
   */
  function UpdateTaskValidator(users: seq<User>, rooms: seq<Room>, links: seq<UserRoom>, tasks: seq<Task>,
                               taskId: Id, dueDate: int, userId: Id, now: int): (r: Outcome)
    ensures dueDate < now ==> r == Fail(BadRequest(DueDateInvalid))
    ensures dueDate >= now && TaskById(tasks, taskId).None? ==> r == Fail(NotFound("Task not found"))
    ensures dueDate >= now && TaskById(tasks, taskId).Some? && UserById(users, userId).None? ==>
      r == Fail(NotFound("User not found"))
    ensures dueDate >= now && TaskById(tasks, taskId).Some? && UserById(users, userId).Some? &&
            RoomOf(rooms, tasks[TaskById(tasks, taskId).value]).None? ==>
      r == Fail(Crash)
    ensures dueDate >= now && TaskById(tasks, taskId).Some? && UserById(users, userId).Some? &&
            RoomOf(rooms, tasks[TaskById(tasks, taskId).value]).Some? &&
            LinkOf(links, userId, RoomOf(rooms, tasks[TaskById(tasks, taskId).value]).value.id).None? ==>
      r == Fail(BadRequest(NotInRoom))
    ensures r == Pass <==>
      && dueDate >= now
      && TaskById(tasks, taskId).Some?
      && UserById(users, userId).Some?
      && RoomOf(rooms, tasks[TaskById(tasks, taskId).value]).Some?
      && LinkOf(links, userId, tasks[TaskById(tasks, taskId).value].roomId.value).Some?
  {
    if dueDate < now then Fail(BadRequest(DueDateInvalid))
    else match TaskById(tasks, taskId)
      case None => Fail(NotFound("Task not found"))
      case Some(k) =>
        if UserById(users, userId).None? then Fail(NotFound("User not found"))
        else match RoomOf(rooms, tasks[k])
          case None => Fail(Crash)
          case Some(room) => if LinkOf(links, userId, room.id).None? then Fail(BadRequest(NotInRoom)) else Pass
  }

  /** The checks of `assignTaskValidator` once the task's room is known. */
  function AssignChecks(links: seq<UserRoom>, ownerId: Id, roomId: Id, userId: Id): (r: Outcome)
    ensures r == Pass <==>
      && LinkOf(links, ownerId, roomId).Some?
      && links[LinkOf(links, ownerId, roomId).value].isOwner
      && LinkOf(links, userId, roomId).Some?
    ensures LinkOf(links, ownerId, roomId).None? ==> r == Fail(Crash)
    ensures LinkOf(links, ownerId, roomId).Some? && !links[LinkOf(links, ownerId, roomId).value].isOwner ==>
      r == Fail(Unauthorized("You are not allowed to assign task"))
    ensures LinkOf(links, ownerId, roomId).Some? && links[LinkOf(links, ownerId, roomId).value].isOwner &&
            LinkOf(links, userId, roomId).None? ==>
      r == Fail(BadRequest(NotInRoom))
  {
    match LinkOf(links, ownerId, roomId)
    case None => Fail(Crash)
    case Some(j) =>
      if !links[j].isOwner then Fail(Unauthorized("You are not allowed to assign task"))
      else if LinkOf(links, userId, roomId).None? then Fail(BadRequest(NotInRoom))
      else Pass
  }

  /**
   * `assignTaskValidator(ownerId, taskId, userId)` as written: the task is
   * loaded without relations, so `task.room` is undefined and `task.room.id`
   * throws for every task that exists.
   */
  function AssignTaskValidatorAsWritten(links: seq<UserRoom>, tasks: seq<Task>, ownerId: Id, taskId: Id, userId: Id)
    : (r: Outcome)
    ensures TaskById(tasks, taskId).None? ==> r == Fail(NotFound("Task not found"))
    ensures TaskById(tasks, taskId).Some? ==> r == Fail(Crash)
  {
    match TaskById(tasks, taskId)
    case None => Fail(NotFound("Task not found"))
    case Some(k) =>
      var room: Loaded<Room> := Unloaded;
      match room
      case Row(m) => AssignChecks(links, ownerId, m.id, userId)
      case Unloaded => Fail(Crash)
  }

  /** `assignTaskValidator` with the task's room loaded: the owner check and the assignee's membership. */
  function AssignTaskValidator(rooms: seq<Room>, links: seq<UserRoom>, tasks: seq<Task>, ownerId: Id, taskId: Id, userId: Id)
    : (r: Outcome)
    ensures TaskById(tasks, taskId).None? ==> r == Fail(NotFound("Task not found"))
    ensures r == Pass ==>
      && TaskById(tasks, taskId).Some?
      && var t := tasks[TaskById(tasks, taskId).value];
         && t.roomId.Some?
         && Rooms.IsRoomCreator(links, ownerId, t.roomId.value)
         && LinkOf(links, userId, t.roomId.value).Some?
    ensures TaskById(tasks, taskId).Some? && RoomOf(rooms, tasks[TaskById(tasks, taskId).value]).Some? ==>
      r == AssignChecks(links, ownerId, tasks[TaskById(tasks, taskId).value].roomId.value, userId)
    ensures TaskById(tasks, taskId).Some? && RoomOf(rooms, tasks[TaskById(tasks, taskId).value]).None? ==>
      r == Fail(Crash)
  {
    match TaskById(tasks, taskId)
    case None => Fail(NotFound("Task not found"))
    case Some(k) =>
      match RoomOf(rooms, tasks[k])
      case None => Fail(Crash)
      case Some(m) =>
        AssignChecks(links, ownerId, m.id, userId)
  }

  /** The as-written validator refuses every assignment that the intended one accepts. */
  lemma AssignValidatorAlwaysThrows(rooms: seq<Room>, links: seq<UserRoom>, tasks: seq<Task>, ownerId: Id, taskId: Id, userId: Id)
    requires AssignTaskValidator(rooms, links, tasks, ownerId, taskId, userId) == Pass
    ensures AssignTaskValidatorAsWritten(links, tasks, ownerId, taskId, userId) == Fail(Crash)
  {
  }

  /**
   * `updateStatusTaskValidator(userId, task)`: the live task, a status of the
   * enum, then the caller's link to the task's room: an owner passes, and so
   * does the task's assignee. A null room, a caller without link, or an
   * unassigned task read by a non-owner makes a property read throw.
   */
  function UpdateStatusTaskValidator(users: seq<User>, rooms: seq<Room>, links: seq<UserRoom>, tasks: seq<Task>,
                                     userId: Id, taskId: Id, status: StatusText): (r: Outcome)
    ensures TaskById(tasks, taskId).None? ==> r == Fail(NotFound("Task not found"))
    ensures TaskById(tasks, taskId).Some? && status.Unlisted? ==> r == Fail(BadRequest("Status is invalid"))
    ensures r == Pass ==>
      && status.Listed?
      && TaskById(tasks, taskId).Some?
      && var t := tasks[TaskById(tasks, taskId).value];
         && t.roomId.Some?
         && (Rooms.IsRoomCreator(links, userId, t.roomId.value) || t.userId == Some(userId))
    ensures r == Fail(Unauthorized("You are not allowed to update status")) ==>
      && TaskById(tasks, taskId).Some?
      && var t := tasks[TaskById(tasks, taskId).value];
         && t.userId.Some? && t.userId != Some(userId)
         && t.roomId.Some? && LinkOf(links, userId, t.roomId.value).Some?
         && !links[LinkOf(links, userId, t.roomId.value).value].isOwner
    ensures r == Pass <==>
      && status.Listed?
      && TaskById(tasks, taskId).Some?
      && var t := tasks[TaskById(tasks, taskId).value];
         && RoomOf(rooms, t).Some?
         && LinkOf(links, userId, RoomOf(rooms, t).value.id).Some?
         && (|| links[LinkOf(links, userId, RoomOf(rooms, t).value.id).value].isOwner
             || (AssigneeOf(users, t).Some? && AssigneeOf(users, t).value.id == userId))
    ensures r == Fail(Unauthorized("You are not allowed to update status")) <==>
      && status.Listed?
      && TaskById(tasks, taskId).Some?
      && var t := tasks[TaskById(tasks, taskId).value];
         && RoomOf(rooms, t).Some?
         && LinkOf(links, userId, RoomOf(rooms, t).value.id).Some?
         && !links[LinkOf(links, userId, RoomOf(rooms, t).value.id).value].isOwner
         && AssigneeOf(users, t).Some? && AssigneeOf(users, t).value.id != userId
    ensures r == Fail(Crash) <==>
      && status.Listed?
      && TaskById(tasks, taskId).Some?
      && var t := tasks[TaskById(tasks, taskId).value];
         || RoomOf(rooms, t).None?
         || LinkOf(links, userId, RoomOf(rooms, t).value.id).None?
         || (!links[LinkOf(links, userId, RoomOf(rooms, t).value.id).value].isOwner && AssigneeOf(users, t).None?)
  {
    match TaskById(tasks, taskId)
    case None => Fail(NotFound("Task not found"))
    case Some(k) =>
      if status.Unlisted? then Fail(BadRequest("Status is invalid"))
      else match RoomOf(rooms, tasks[k])
        case None => Fail(Crash)
        case Some(room) =>
          match LinkOf(links, userId, room.id)
          case None => Fail(Crash)
          case Some(j) =>
            if links[j].isOwner then
              assert Rooms.InRoom(links[j], room.id) && links[j].userId == Some(userId);
              Pass
            else match AssigneeOf(users, tasks[k])
              case None => Fail(Crash)
              case Some(u) => if u.id == userId then Pass else Fail(Unauthorized("You are not allowed to update status"))
  }

  /** The assignee columns `getTasksOfRoom` selects. */
  datatype AssigneeView = AssigneeView(id: Id, fullName: string, email: string)

  /** The task columns `getTasksOfRoom` selects: neither the room nor `isComplete` is among them. */
  datatype TaskView = TaskView(id: Id, title: string, description: string, dueDate: int, status: StatusText,
                               review: string, user: Option<AssigneeView>)

  /** A task as `getTasksOfRoom` returns it: its selected columns, and its assignee's, or null. */
  function ViewOf(users: seq<User>, t: Task): (v: TaskView)
    ensures v.id == t.id && v.title == t.title && v.description == t.description
    ensures v.dueDate == t.dueDate && v.status == t.status && v.review == t.review
    ensures v.user.Some? <==> AssigneeOf(users, t).Some?
    ensures v.user.Some? ==> exists u :: u in users && Some(u.id) == t.userId && v.user.value == AssigneeView(u.id, u.fullName, u.email)
  {
    match AssigneeOf(users, t)
    case None => TaskView(t.id, t.title, t.description, t.dueDate, t.status, t.review, None)
    case Some(u) => TaskView(t.id, t.title, t.description, t.dueDate, t.status, t.review,
                             Some(AssigneeView(u.id, u.fullName, u.email)))
  }

  /** The rows the `find` of `getTasksOfRoom` matches: the room's live tasks, only the given assignee's when one is given. */
  function RoomTasks(tasks: seq<Task>, roomId: Id, userId: Option<Id>): (r: seq<Task>)
    ensures forall i :: 0 <= i < |r| ==>
      r[i] in tasks && !r[i].deleted && r[i].roomId == Some(roomId) && (userId.Some? ==> r[i].userId == userId)
    ensures forall k :: (0 <= k < |tasks| && !tasks[k].deleted && tasks[k].roomId == Some(roomId) &&
                         (userId.Some? ==> tasks[k].userId == userId)) ==> tasks[k] in r
  {
    Where(tasks, (t: Task) => !t.deleted && t.roomId == Some(roomId) && (userId.None? || t.userId == userId))
  }

  /** `getTasksOfRoom(roomId, userId)`: the selected columns of every matched task, in table order. */
  function GetTasksOfRoom(users: seq<User>, tasks: seq<Task>, roomId: Id, userId: Option<Id>): (r: seq<TaskView>)
    ensures |r| == |RoomTasks(tasks, roomId, userId)|
    ensures forall i :: 0 <= i < |r| ==>
      exists t :: t in tasks && !t.deleted && t.roomId == Some(roomId) && (userId.Some? ==> t.userId == userId) &&
                  r[i] == ViewOf(users, t)
    ensures forall k :: (0 <= k < |tasks| && !tasks[k].deleted && tasks[k].roomId == Some(roomId) &&
                         (userId.Some? ==> tasks[k].userId == userId)) ==> ViewOf(users, tasks[k]) in r
  {
    var matched := RoomTasks(tasks, roomId, userId);
    var r := seq(|matched|, i requires 0 <= i < |matched| => ViewOf(users, matched[i]));
    assert forall k :: (0 <= k < |tasks| && !tasks[k].deleted && tasks[k].roomId == Some(roomId) &&
                         (userId.Some? ==> tasks[k].userId == userId)) ==> ViewOf(users, tasks[k]) in r by {
      forall k | 0 <= k < |tasks| && !tasks[k].deleted && tasks[k].roomId == Some(roomId) &&
                 (userId.Some? ==> tasks[k].userId == userId)
        ensures ViewOf(users, tasks[k]) in r
      {
        var i :| 0 <= i < |matched| && matched[i] == tasks[k];
        assert r[i] == ViewOf(users, tasks[k]);
      }
    }
    r
  }

  /** Narrowing to an assignee never lists more tasks than the whole room. */
  lemma {:induction false} AssigneeFilterNarrows(users: seq<User>, tasks: seq<Task>, roomId: Id, userId: Id)
    ensures |GetTasksOfRoom(users, tasks, roomId, Some(userId))| <= |GetTasksOfRoom(users, tasks, roomId, None)|
    decreases |tasks|
  {
    if |tasks| > 0 {
      AssigneeFilterNarrows(users, tasks[1..], roomId, userId);
    }
  }

  /**
   * Whether `updateTask` notifies, as written: the task was loaded with the
   * `room` relation only, so `existTask.user` is undefined and reading its id
   * throws, after the row was already updated.
   */
  function NotifyOnUpdateAsWritten(existing: Task, userId: Id): (r: Result<bool>)
    ensures r == Err(Crash)
  {
    var user: Loaded<User> := Unloaded;
    match user
    case Row(u) => Ok(u.id != userId)
    case Unloaded => Err(Crash)
  }

  /** The intended rule: notify the new assignee when the assignee changes (an unassigned task counts as a change). */
  function NotifyOnUpdate(existing: Task, userId: Id): (r: bool)
    ensures r <==> existing.userId != Some(userId)
  {
    match existing.userId
    case None => true
    case Some(uid) => uid != userId
  }

  /** Reassigning a task to a different user notifies under the intended rule and throws as written. */
  lemma ReassignmentNotifiesOnlyWhenCorrected(existing: Task, userId: Id)
    requires existing.userId.Some? && existing.userId.value != userId
    ensures NotifyOnUpdate(existing, userId)
    ensures NotifyOnUpdateAsWritten(existing, userId).Err?
  {
  }

  /** `update({ id: taskId }, { title, description, dueDate, user: { id: userId } })`. */
  function EditTasks(tasks: seq<Task>, taskId: Id, title: string, description: string, dueDate: int, userId: Id)
    : (r: seq<Task>)
    ensures |r| == |tasks|
    ensures forall k :: 0 <= k < |tasks| && tasks[k].id != taskId ==> r[k] == tasks[k]
    ensures forall k :: 0 <= k < |tasks| && tasks[k].id == taskId ==>
      r[k] == tasks[k].(title := title, description := description, dueDate := dueDate, userId := Some(userId))
  {
    seq(|tasks|, k requires 0 <= k < |tasks| =>
      if tasks[k].id == taskId
      then tasks[k].(title := title, description := description, dueDate := dueDate, userId := Some(userId))
      else tasks[k])
  }

  /** `update({ id: taskId }, { user: { id: userId } })`. */
  function AssignTasks(tasks: seq<Task>, taskId: Id, userId: Id): (r: seq<Task>)
    ensures |r| == |tasks|
    ensures forall k :: 0 <= k < |tasks| && tasks[k].id != taskId ==> r[k] == tasks[k]
    ensures forall k :: 0 <= k < |tasks| && tasks[k].id == taskId ==> r[k] == tasks[k].(userId := Some(userId))
  {
    seq(|tasks|, k requires 0 <= k < |tasks| => if tasks[k].id == taskId then tasks[k].(userId := Some(userId)) else tasks[k])
  }

  /** `update({ id: taskId }, { status })`. */
  function SetStatus(tasks: seq<Task>, taskId: Id, status: StatusText): (r: seq<Task>)
    ensures |r| == |tasks|
    ensures forall k :: 0 <= k < |tasks| && tasks[k].id != taskId ==> r[k] == tasks[k]
    ensures forall k :: 0 <= k < |tasks| && tasks[k].id == taskId ==> r[k] == tasks[k].(status := status)
  {
    seq(|tasks|, k requires 0 <= k < |tasks| => if tasks[k].id == taskId then tasks[k].(status := status) else tasks[k])
  }

  /** `softDelete({ id })`. */
  function SoftDeleteTasks(tasks: seq<Task>, taskId: Id): (r: seq<Task>)
    ensures |r| == |tasks|
    ensures TaskById(r, taskId).None?
    ensures forall k :: 0 <= k < |tasks| && tasks[k].id != taskId ==> r[k] == tasks[k]
    ensures forall k :: 0 <= k < |tasks| && tasks[k].id == taskId ==> r[k] == tasks[k].(deleted := true)
  {
    seq(|tasks|, k requires 0 <= k < |tasks| => if tasks[k].id == taskId then tasks[k].(deleted := true) else tasks[k])
  }

  /** A rewrite that keeps every row's key and deletion mark leaves `findOne` on a key pointing at the same row. */
  lemma SameKeysSameLookup(tasks: seq<Task>, after: seq<Task>, taskId: Id)
    requires |after| == |tasks|
    requires forall k :: 0 <= k < |tasks| ==> after[k].id == tasks[k].id && after[k].deleted == tasks[k].deleted
    ensures TaskById(after, taskId) == TaskById(tasks, taskId)
  {
  }

  /** After `updateTask`'s write, looking the task up again reads back the new fields. */
  lemma EditReadBack(tasks: seq<Task>, taskId: Id, title: string, description: string, dueDate: int, userId: Id)
    requires TaskById(tasks, taskId).Some?
    ensures var after := EditTasks(tasks, taskId, title, description, dueDate, userId);
      && TaskById(after, taskId) == TaskById(tasks, taskId)
      && var t := after[TaskById(after, taskId).value];
         t.title == title && t.description == description && t.dueDate == dueDate && t.userId == Some(userId)
  {
    SameKeysSameLookup(tasks, EditTasks(tasks, taskId, title, description, dueDate, userId), taskId);
  }

  /** After `assignTask`'s write, the task's assignee is the new user. */
  lemma AssignReadBack(tasks: seq<Task>, taskId: Id, userId: Id)
    requires TaskById(tasks, taskId).Some?
    ensures var after := AssignTasks(tasks, taskId, userId);
      TaskById(after, taskId).Some? && after[TaskById(after, taskId).value].userId == Some(userId)
  {
    SameKeysSameLookup(tasks, AssignTasks(tasks, taskId, userId), taskId);
  }

  /** After `updateStatusTask`'s write, the task carries the new status and nothing else of it changed. */
  lemma StatusReadBack(tasks: seq<Task>, taskId: Id, status: StatusText)
    requires TaskById(tasks, taskId).Some?
    ensures var after := SetStatus(tasks, taskId, status);
      && TaskById(after, taskId) == TaskById(tasks, taskId)
      && after[TaskById(after, taskId).value] == tasks[TaskById(tasks, taskId).value].(status := status)
  {
    SameKeysSameLookup(tasks, SetStatus(tasks, taskId, status), taskId);
  }

  /** What `updateStatusTask` needs for its notice: the task, its room and the room owner's key. */
  datatype CompletionContext = CompletionContext(task: Task, room: Room, ownerId: Id)

  /**
   * The lookups `updateStatusTask` makes after its update: the live task with
   * its room, then the room's first live owner link with its user. Any of them
   * missing makes a property read throw.
   */
  function CompletionLookup(users: seq<User>, rooms: seq<Room>, links: seq<UserRoom>, tasks: seq<Task>, taskId: Id)
    : (r: Result<CompletionContext>)
    ensures r.Err? ==> r.error == Crash
    ensures r.Ok? ==>
      && TaskById(tasks, taskId).Some?
      && r.value.task == tasks[TaskById(tasks, taskId).value]
      && RoomOf(rooms, r.value.task) == Some(r.value.room)
      && Rooms.IsRoomCreator(links, r.value.ownerId, r.value.room.id)
      && UserById(users, r.value.ownerId).Some?
    ensures r.Ok? ==>
      && First(links, (l: UserRoom) => Rooms.InRoom(l, r.value.room.id) && l.isOwner).Some?
      && links[First(links, (l: UserRoom) => Rooms.InRoom(l, r.value.room.id) && l.isOwner).value].userId
           == Some(r.value.ownerId)
    ensures r.Ok? <==>
      && TaskById(tasks, taskId).Some?
      && var t := tasks[TaskById(tasks, taskId).value];
         && RoomOf(rooms, t).Some?
         && var owner := First(links, (l: UserRoom) => Rooms.InRoom(l, RoomOf(rooms, t).value.id) && l.isOwner);
            && owner.Some?
            && links[owner.value].userId.Some?
            && UserById(users, links[owner.value].userId.value).Some?
  {
    match TaskById(tasks, taskId)
    case None => Err(Crash)
    case Some(k) =>
      match RoomOf(rooms, tasks[k])
      case None => Err(Crash)
      case Some(room) =>
        match First(links, (l: UserRoom) => Rooms.InRoom(l, room.id) && l.isOwner)
        case None => Err(Crash)
        case Some(j) =>
          match links[j].userId
          case None => Err(Crash)
          case Some(uid) =>
            if UserById(users, uid).None? then Err(Crash)
            else
              assert Rooms.InRoom(links[j], room.id) && links[j].userId == Some(uid) && links[j].isOwner;
              Ok(CompletionContext(tasks[k], room, uid))
  }

  /** The message of a completed task: its title and its room's name, quoted. */
  function CompletedBody(taskTitle: string, roomName: string): string
  {
    "Task \"" + taskTitle + "\" in room \"" + roomName + "\" is DONE"
  }

  /** The owner is told of a status change exactly when someone else set the status to DONE. */
  predicate NotifiesOwner(curUserId: Id, ownerId: Id, status: StatusText)
  {
    curUserId != ownerId && status == Listed(DONE)
  }

  class TaskService {
    const db: Database
    const notifier: NotificationService

    constructor (db: Database, notifier: NotificationService)
      requires notifier.db == db
      ensures this.db == db && this.notifier == notifier
    {
      this.db := db;
      this.notifier := notifier;
    }

    /** `createTask(task)`: saves the new row and answers true. */
    method CreateTask(title: string, description: string, dueDate: int, roomId: Id, userId: Option<Id>, taskId: Id)
      returns (r: bool)
      modifies db`tasks
      ensures r
      ensures db.tasks == old(db.tasks) + [NewTask(db.users, db.rooms, taskId, title, description, dueDate, roomId, userId)]
    {
      var t := NewTask(db.users, db.rooms, taskId, title, description, dueDate, roomId, userId);
      db.tasks := db.tasks + [t];
      r := true;
    }

    /**
     * `updateTask(taskId, task)` with the assignee check the code intends
     * (`NotifyOnUpdate`): the rows with the key are rewritten, then the new
     * assignee is notified if the assignee changed.
     */
    method UpdateTask(taskId: Id, title: string, description: string, dueDate: int, userId: Id, now: int, notificationId: Id)
      returns (r: Outcome)
      requires notifier.db == db
      modifies db`tasks, db`loginSessions, db`outbox, db`notifications
      ensures TaskById(old(db.tasks), taskId).None? ==>
        && r == Fail(NotFound("Task not found")) && db.tasks == old(db.tasks)
        && unchanged(db`loginSessions, db`outbox, db`notifications)
      ensures TaskById(old(db.tasks), taskId).Some? ==>
        var t := old(db.tasks)[TaskById(old(db.tasks), taskId).value];
        && db.tasks == EditTasks(old(db.tasks), taskId, title, description, dueDate, userId)
        && (!NotifyOnUpdate(t, userId) ==> r == Pass && unchanged(db`loginSessions, db`outbox, db`notifications))
        && (NotifyOnUpdate(t, userId) && RoomOf(db.rooms, t).None? ==>
              r == Fail(Crash) && unchanged(db`loginSessions, db`outbox, db`notifications))
        && (NotifyOnUpdate(t, userId) && RoomOf(db.rooms, t).Some? ==>
              && r == Pass
              && NotifiedAndSaved(db, userId, AssignedTitle,
                   "Assigned to task " + t.title + " in room " + RoomOf(db.rooms, t).value.name, now, notificationId))
    {
      var k := TaskById(db.tasks, taskId);
      if k.None? {
        return Fail(NotFound("Task not found"));
      }
      var t := db.tasks[k.value];
      db.tasks := EditTasks(db.tasks, taskId, title, description, dueDate, userId);
      if !NotifyOnUpdate(t, userId) {
        return Pass;
      }
      var room := RoomOf(db.rooms, t);
      if room.None? {
        return Fail(Crash);
      }
      notifier.SendNotificationAndSave(userId, AssignedTitle,
        "Assigned to task " + t.title + " in room " + room.value.name, now, notificationId);
      r := Pass;
    }

    /**
     * `assignTask(taskId, userId)`: the rows with the key get the assignee, then
     * the assignee is notified; a task without room makes the message throw
     * after the update.
     */
    method AssignTask(taskId: Id, userId: Id, now: int, notificationId: Id) returns (r: Outcome)
      requires notifier.db == db
      modifies db`tasks, db`loginSessions, db`outbox, db`notifications
      ensures TaskById(old(db.tasks), taskId).None? ==>
        && r == Fail(NotFound("Task not found")) && db.tasks == old(db.tasks)
        && unchanged(db`loginSessions, db`outbox, db`notifications)
      ensures TaskById(old(db.tasks), taskId).Some? ==>
        var t := old(db.tasks)[TaskById(old(db.tasks), taskId).value];
        && db.tasks == AssignTasks(old(db.tasks), taskId, userId)
        && (RoomOf(db.rooms, t).None? ==> r == Fail(Crash) && unchanged(db`loginSessions, db`outbox, db`notifications))
        && (RoomOf(db.rooms, t).Some? ==>
              && r == Pass
              && NotifiedAndSaved(db, userId, AssignedTitle,
                   "Assigned to task \"" + KeyText(taskId) + "\" in room \"" + RoomOf(db.rooms, t).value.name + "\"",
                   now, notificationId))
    {
      var k := TaskById(db.tasks, taskId);
      if k.None? {
        return Fail(NotFound("Task not found"));
      }
      var t := db.tasks[k.value];
      db.tasks := AssignTasks(db.tasks, taskId, userId);
      var room := RoomOf(db.rooms, t);
      if room.None? {
        return Fail(Crash);
      }
      notifier.SendNotificationAndSave(userId, AssignedTitle,
        "Assigned to task \"" + KeyText(taskId) + "\" in room \"" + room.value.name + "\"", now, notificationId);
      r := Pass;
    }

    /** `deleteTask(id)`: soft-deletes the rows with the key of a live task. */
    method DeleteTask(taskId: Id) returns (r: Outcome)
      modifies db`tasks
      ensures TaskById(old(db.tasks), taskId).None? ==> r == Fail(NotFound("Task not found")) && db.tasks == old(db.tasks)
      ensures TaskById(old(db.tasks), taskId).Some? ==> r == Pass && db.tasks == SoftDeleteTasks(old(db.tasks), taskId)
      ensures TaskById(db.tasks, taskId).None?
    {
      if TaskById(db.tasks, taskId).None? {
        return Fail(NotFound("Task not found"));
      }
      db.tasks := SoftDeleteTasks(db.tasks, taskId);
      r := Pass;
    }

    /**
     * `updateStatusTask(curUserId, task)`: the rows with the key get the status;
     * then the room owner is notified when someone else marked the task DONE.
     */
    method UpdateStatusTask(curUserId: Id, taskId: Id, status: StatusText, now: int, notificationId: Id)
      returns (r: Outcome)
      requires notifier.db == db
      modifies db`tasks, db`loginSessions, db`outbox, db`notifications
      ensures db.tasks == SetStatus(old(db.tasks), taskId, status)
      ensures match CompletionLookup(db.users, db.rooms, db.userRooms, db.tasks, taskId)
        case Err(e) => r == Fail(e) && unchanged(db`loginSessions, db`outbox, db`notifications)
        case Ok(c) =>
          && r == Pass
          && (!NotifiesOwner(curUserId, c.ownerId, status) ==> unchanged(db`loginSessions, db`outbox, db`notifications))
          && (NotifiesOwner(curUserId, c.ownerId, status) ==>
                NotifiedAndSaved(db, c.ownerId, CompletedTitle,
                  CompletedBody(c.task.title, c.room.name), now, notificationId))
    {
      db.tasks := SetStatus(db.tasks, taskId, status);
      r := NotifyCompletion(curUserId, taskId, status, now, notificationId);
    }

    /**
     * The part of `updateStatusTask` after the write: the task's room and the
     * room's owner are looked up, and the owner is told when someone else set
     * the status to DONE.
     */
    method NotifyCompletion(curUserId: Id, taskId: Id, status: StatusText, now: int, notificationId: Id)
      returns (r: Outcome)
      requires notifier.db == db
      modifies db`loginSessions, db`outbox, db`notifications
      ensures match CompletionLookup(db.users, db.rooms, db.userRooms, db.tasks, taskId)
        case Err(e) => r == Fail(e) && unchanged(db`loginSessions, db`outbox, db`notifications)
        case Ok(c) =>
          && r == Pass
          && (!NotifiesOwner(curUserId, c.ownerId, status) ==> unchanged(db`loginSessions, db`outbox, db`notifications))
          && (NotifiesOwner(curUserId, c.ownerId, status) ==>
                NotifiedAndSaved(db, c.ownerId, CompletedTitle,
                  CompletedBody(c.task.title, c.room.name), now, notificationId))
    {
      var lookup := CompletionLookup(db.users, db.rooms, db.userRooms, db.tasks, taskId);
      if lookup.Err? {
        return Fail(lookup.error);
      }
      var c := lookup.value;
      if NotifiesOwner(curUserId, c.ownerId, status) {
        notifier.SendNotificationAndSave(c.ownerId, CompletedTitle,
          CompletedBody(c.task.title, c.room.name), now, notificationId);
      }
      r := Pass;
    }
  }
}
